=== FILE: README.md ===
# vscode-astx: the glob rewriter, the runner's result rules and the search view status

This project is a Dafny model of the pure core of the vscode-astx extension, with proofs of its properties.

- **Glob splitter** (`splitGlobPattern`, module `SplitGlob`). It cuts a comma-separated list of globs at the commas that are neither escaped by `\` nor inside `()`, `[]` or `{}`. Each piece is trimmed, and empty pieces are dropped.
- **Glob converter** (`joinPatterns` and `convertGlobPattern`, module `ConvertGlob`). It sorts each token into one of three groups:
  - absolute;
  - relative to a workspace folder named by its first segment;
  - general.
  
  It then builds a single brace alternation for the worker pool.
- **Helpers** the two glob modules use:
  - `PosixPath`: the POSIX parts of Node's `path`;
  - `Text`: ECMAScript `trim` and `Array.prototype.join`;
  - `Optional`: optional values.
- **Runner** (`AstxRunner`). It covers:
  - which worker results are reported, and which are recorded in `transformResults` for `replace`;
  - the three early exits of `run`;
  - the include and exclude globs `run` gives the worker pool;
  - how `stop` and `replace` empty the recorded results.
  
  The worker pool's output is a parameter: a sequence of progress and result messages.
- **End position** (`endPosition`, module `EndPosition`). It scans for `\r\n`, `\r` and `\n`. Columns count UTF-16 code units, as JavaScript's `s.length` does. The function is modelled twice: as written, and as evidently intended (see Findings). `replace` uses the one as written, as the source does; `ReplaceIntended` is `replace` with the intended one.
- **Search view status** (module `SearchReplaceView`). The listeners of the search view's `status` record become a reducer over runner events. It is proved equal to a summary of the event history:
  - the four counters tally the results since the last `stop`;
  - `running` follows the last `start`/`stop`/`done`;
  - `completed` and `total` come from the last `progress`.

Each operation has an independent partner that the proofs tie it to.

| operation | partner |
|---|---|
| the splitter's index walk | a per-character cursor description (`CursorAt`, `IsSeparator`, `Pieces`); it shares only the counter update `Step`, which `StepOpens` and `StepUndo` state in full |
| the converter's single pass | the groups as filters of the token list (`Absolutes`, `Generals`, `FolderOrder`, `RelsFor`) |
| the runner's stream loop | "the last changing result per file" (`LastChange`) |
| `endPosition` | a count of terminator starts (`IsBreakStart`) |
| the view reducer | `Summary` |

Two imports point at files this model does not include:
- `src/extension/convertGlobPattern.ts` imports a sibling `./splitGlobPattern`. That file is not part of this model; `src/glob/splitGlobPattern.ts` stands in for it.
- `src/AstxRunner.ts` imports `./glob/convertGlobPattern`. That file is not part of this model either; `src/extension/convertGlobPattern.ts` stands in for it.

`joinPatterns([])` returns `{}`, so a blank pattern list converts to `{}` (`ConvertGlob.BlankConvertsToEmptyAlternation`).

## Model

| member | source | states |
|---|---|---|
| SplitGlob.StepOpens | src/glob/splitGlobPattern.ts:11-19 | `(`, `[` and `{` each raise their own counter by one and leave the other two alone. |
| SplitGlob.StepUndo | src/glob/splitGlobPattern.ts:20-28 | A closer undoes its own opener. A closer whose counter is already zero changes nothing. Every other character, the comma included, leaves the counters alone. |
| SplitGlob.StepKeepsOpen | src/glob/splitGlobPattern.ts:11-28 | No character but its own closer lowers a group's counter, and its opener raises it by one. |
| SplitGlob.Scan | src/glob/splitGlobPattern.ts:6-37 | The walk always produces at least one piece, even on empty input. Where it cuts is stated by `SplitGlob.ScanCutsAtSeparators`. |
| SplitGlob.SplitGlobPattern | src/glob/splitGlobPattern.ts:1-40 | Every token is non-empty and equal to its own trim. |
| SplitGlob.AllTokensAt | src/glob/splitGlobPattern.ts:31-32 | The same, token by token: each yielded token is non-empty and trimmed. |
| SplitGlob.TrimAndDrop | src/glob/splitGlobPattern.ts:31-32 | Each piece is trimmed and dropped when it is empty. No more tokens come out than pieces went in. |
| SplitGlob.SeparatorsFrom | src/glob/splitGlobPattern.ts:29-35 | The cut positions are strictly increasing and lie inside the text. |
| SplitGlob.SeparatorsFromExact | src/glob/splitGlobPattern.ts:29-35 | The cut positions are exactly the commas that are unescaped with all three counters at zero. |
| SplitGlob.ScanCutsAtSeparators | src/glob/splitGlobPattern.ts:6-37 | The index walk (which skips a character after `\`) cuts exactly at the separators of the per-character cursor description. |
| SplitGlob.SplitIsTrimmedPieces | src/glob/splitGlobPattern.ts:1-40 | The tokens are the text between consecutive separators, in order, each trimmed, with the empty ones dropped. |
| SplitGlob.PiecesRebuildPattern | src/glob/splitGlobPattern.ts:31-38 | Rejoining the pieces with commas gives back the whole input: no text is lost except at the cuts and in trimming. |
| SplitGlob.NoSeparatorOneToken | src/glob/splitGlobPattern.ts:38-39 | Input with no separator yields at most one token: the whole input trimmed. |
| SplitGlob.BlankPatternNoTokens | src/glob/splitGlobPattern.ts:31-32 | Empty or whitespace-only input yields no token. |
| SplitGlob.EscapeIsInert | src/glob/splitGlobPattern.ts:8-10 | After an unescaped backslash, neither the backslash nor the next character is a separator, whatever it is, and the counters after the pair are those before it. |
| SplitGlob.PlainOneToken | src/glob/splitGlobPattern.ts:6-39 | Text without backslash, comma or bracket characters leaves the scanner fresh and is at most one token: its trim, or none when that is empty. |
| SplitGlob.GroupOpenAt | src/glob/splitGlobPattern.ts:11-30 | After an unescaped `(`, `[` or `{`, as long as its closer and `\` do not appear, the scanner is unescaped and that group's counter is at least one. |
| SplitGlob.GroupCommasNotSeparators | src/glob/splitGlobPattern.ts:11-35 | A comma inside a group (after an unescaped opener, before its closer, with no backslash) is never a separator, whatever text follows. |
| SplitGlob.OpenGroupOneToken | src/glob/splitGlobPattern.ts:6-39 | Plain text followed by a group that is never closed is at most one token: the commas inside the group do not split it. |
| SplitGlob.ClosedGroupOneToken | src/glob/splitGlobPattern.ts:6-39 | Plain text, a group with its closer, and plain text (such as `a/{bar,baz}`) form at most one token, its trim. |
| SplitGlob.SplitEachOfSingles | src/glob/splitGlobPattern.ts:29-39 | When each piece is at most one token, splitting piece by piece trims the pieces and drops the blank ones. |
| SplitGlob.PlainPiecesThenGroup | src/glob/splitGlobPattern.ts:1-40 | Plain globs and then one glob with a group, joined by commas, split into the trimmed globs with the blank ones dropped. |
| SplitGlob.SplitConcat | src/glob/splitGlobPattern.ts:29-35 | When `a` ends unescaped outside every group, the tokens of `a + "," + b` are those of `a` followed by those of `b`. |
| SplitGlob.SplitJoinPieces | src/glob/splitGlobPattern.ts:29-39 | Splitting comma-joined pieces, each closed but the last, splits each piece in turn. |
| SplitGlob.SplitJoinRoundTrip | src/glob/splitGlobPattern.ts:1-40 | Splitting inverts joining with commas, for globs that are trimmed, non-empty, separator-free and closed. |
| Text.Trim | src/glob/splitGlobPattern.ts:31 | The result neither starts nor ends with an ECMAScript white space or line terminator. Trimmed text is a fixed point. |
| Text.TrimRemovesOnlySpaces | src/glob/splitGlobPattern.ts:31 | Trimming removes a run of white space from each end and nothing else. |
| Text.TrimEmptyIffAllSpace | src/glob/splitGlobPattern.ts:32 | The trim is empty exactly when the text is all white space. |
| ConvertGlob.JoinPatterns | src/extension/convertGlobPattern.ts:4-6 | One pattern is returned unchanged. Any other count gives `{`, the patterns joined by commas in order, and `}`. No patterns give `{}`. |
| ConvertGlob.JoinPatternsSplitsBack | src/extension/convertGlobPattern.ts:4-6 | The inside of a brace alternation of closed globs splits back into exactly those globs. |
| ConvertGlob.LastNamed | src/extension/convertGlobPattern.ts:13 | Finds the last folder with a given basename, or reports that none has it. |
| ConvertGlob.ByNameLastWins | src/extension/convertGlobPattern.ts:13 | The basename lookup finds a name exactly when some folder has it. On duplicate basenames the later folder in the list wins. |
| ConvertGlob.ClassifyByBasename | src/extension/convertGlobPattern.ts:17-33 | About `Classify`, `GeneralForm` and `PosixPath.IsAbsolute`. A token is absolute exactly when it starts with `/`, and then keeps its text. It is folder-relative exactly when it is relative and its first segment is some folder's basename; it then goes to the last such folder, without its first segment. Otherwise it is general: kept when it starts with `.`, else prefixed with `**/`. |
| ConvertGlob.ClassifyAll | src/extension/convertGlobPattern.ts:17 | Every token is classified, in order. |
| ConvertGlob.AddToBucket | src/extension/convertGlobPattern.ts:25-28 | The folder's bucket gains the remainder at its end. A new bucket is created at the end of the key order only when the folder had none. Every other bucket is unchanged. |
| ConvertGlob.BuildPlan | src/extension/convertGlobPattern.ts:17-34 | The pass keeps every folder once in the bucket order, and the keys are exactly the folders with a bucket. |
| ConvertGlob.FolderOrder | src/extension/convertGlobPattern.ts:25-27 | Lists the folders that receive a token, each once. |
| ConvertGlob.FolderOrderHasFolders | src/extension/convertGlobPattern.ts:24-28 | A folder is in the bucket order exactly when some token went to it. |
| ConvertGlob.PlanIsGrouping | src/extension/convertGlobPattern.ts:17-34 | The pass builds the three groups. Absolute tokens and general patterns are kept in input order. There is one bucket per folder, in order of its first token, holding that folder's remainders in input order. |
| ConvertGlob.ConvertShape | src/extension/convertGlobPattern.ts:8-47 | About `ConvertGlobPattern`, `Alternatives` and `BucketAlternatives`. The output is `joinPatterns` of: the absolute tokens verbatim and in order; then `folder/joinPatterns(remainders)` per bucket in creation order; then `joinPatterns(folders)/joinPatterns(general)` when a general pattern exists. There are #absolute + #buckets + (1 if any general) alternatives. |
| ConvertGlob.BlankConvertsToEmptyAlternation | src/extension/convertGlobPattern.ts:40-46 | A blank pattern list converts to `{}`. |
| PosixPath.Basename | src/extension/convertGlobPattern.ts:13 | The basename holds no separator. |
| PosixPath.BasenameIsLastSegment | src/extension/convertGlobPattern.ts:13 | The basename is the end of the path, cut at its last separator. |
| PosixPath.FirstSegment | src/extension/convertGlobPattern.ts:22 | The first segment is the longest separator-free prefix, followed by a separator unless it is the whole path. |
| PosixPath.FirstSegmentRoundTrip | src/extension/convertGlobPattern.ts:22-28 | The first segment, a separator and the remainder handed to the bucket (`DropFirstSegment`) rebuild the token. A single-segment token leaves an empty remainder. |
| PosixPath.Join | src/extension/convertGlobPattern.ts:31 | An empty second part adds nothing. Otherwise the result is the first part, one separator, and the second part. |
| PosixPath.JoinThenCut | src/extension/convertGlobPattern.ts:22-28 | Joining a separator-free segment to a non-empty rest is undone by taking the first segment and the remainder. |
| EndPosition.TerminatorAt | src/AstxRunner.ts:301 | A match of `/\r\n?|\n/` has length 2 exactly at CR LF, and is non-empty exactly at CR or LF. |
| EndPosition.LastBreakFrom | src/AstxRunner.ts:303-306 | Finds the start of the last line terminator, or reports that there is none. |
| EndPosition.EndPositionAsWrittenCounts | src/AstxRunner.ts:298-308 | About `EndPositionAsWritten`. The line is the number of terminators, with CR LF, lone CR and lone LF each counted once. The column is `s.length - index + length` of the last terminator in UTF-16 code units (`index` being the code units before it), and 0 when there is none. |
| EndPosition.ScanAsWrittenCounts | src/AstxRunner.ts:303-306 | The loop from any resumption point counts the terminators ahead. Its column is the code units from the last one to the end, plus that terminator's length. |
| EndPosition.NoTerminatorAsWritten | src/AstxRunner.ts:299-300 | As written, text without CR or LF ends at line 0, column 0. |
| EndPosition.NoBreakNoCount | src/AstxRunner.ts:303-304 | The line count is zero exactly when there is no terminator. |
| EndPosition.ScanCounts | src/AstxRunner.ts:303-306 | The corrected loop counts the same lines. Its column is the code units after the last terminator. |
| EndPosition.EndPositionIsEnd | src/AstxRunner.ts:298-308 | About `EndPosition`. The corrected position is the end of the text. Its line is the number of terminators. Its column is the UTF-16 length of the last line: the text after the last CR or LF (`LastLineStart`), or the whole text. |
| EndPosition.AsWrittenDiffers | src/AstxRunner.ts:305 | As written and corrected always agree on the line, and on the column only for the empty text. |
| EndPosition.SingleLineExample | src/AstxRunner.ts:299-307 | `"ab"` ends at (0,0) as written and at (0,2) as intended. |
| EndPosition.SecondLineExample | src/AstxRunner.ts:305 | `"a\nbc"` ends at (1,4) as written and at (1,2) as intended. |
| EndPosition.SurrogatePairExample | src/AstxRunner.ts:305 | A character beyond U+FFFF takes two columns: `"a\n"` followed by U+1F600 ends at (1,4) as written and at (1,2) as intended. |
| AstxRunner.KeptIff | src/AstxRunner.ts:238-246 | About `WorkerResult.Dropped` and `WorkerResult.Changes`. A worker result is reported exactly when it has a match, a report, an error, or a transformed text different from its source (an absent source counts as `''`). Every recorded result is reported. |
| AstxRunner.OnResult | src/AstxRunner.ts:238-260 | A dropped result emits nothing and records nothing. A kept one is reported. It adds or overwrites its file's entry exactly when its transformed text is present and differs from its source. No other file's entry changes. |
| AstxRunner.ProcessIsRecordOfLastChange | src/AstxRunner.ts:207-261 | About `Process`. The loop emits a progress event per progress message and a result event per kept result, in order. Afterwards each file holds the change of its last changing result, or what it held before. |
| AstxRunner.StopRunner | src/AstxRunner.ts:79-83 | `stop` empties `transformResults` and emits `stop`. |
| AstxRunner.Run | src/AstxRunner.ts:121-172 | A run always starts from empty recorded results and emits `stop` then `start`. |
| AstxRunner.RunEndsEarlyIff | src/AstxRunner.ts:147-172 | `run` ends with `done` before scanning exactly in three cases: no workspace folder; a transform file asked for but missing or empty; or no transform file asked for and `find` missing or all white space. Otherwise it queries the pool with the chosen globs. |
| AstxRunner.GlobsReadBack | src/AstxRunner.ts:167-172 | About `Globs`. With no include pattern, the include splits back into the workspace folders, when each folder path is a single closed glob (trimmed, non-empty, without a separator comma, ending outside every group): the lone folder itself, or the inside of a brace alternation. A non-empty include goes through the converter, and a blank one matches nothing (`{}`). An exclude is passed exactly when a non-empty exclude pattern is given, converted. |
| AstxRunner.RunToEnd | src/AstxRunner.ts:121-263 | A whole run emits `stop` and `start` first and ends with `done`. |
| AstxRunner.RunToEndEvents | src/AstxRunner.ts:207-263 | A run that scans emits `stop`, `start`, the reported events in order, and a final `done` after the loop. |
| AstxRunner.ReportedOnlyProgressAndResults | src/AstxRunner.ts:227-260 | The loop emits only `progress` and `result` events. |
| AstxRunner.Replace | src/AstxRunner.ts:280-295 | There is one edit per recorded file, with its transformed text. It spans from (0,0) to the source's `endPosition` of the recorded source, as written. Afterwards the results are empty and `stop` is emitted. |
| AstxRunner.ReplaceSingleLineInserts | src/AstxRunner.ts:288 | On a recorded source without CR or LF, the edit's range is empty, (0,0)-(0,0): the transformed text is inserted before the old text instead of replacing it. |
| AstxRunner.ReplaceIntended | src/AstxRunner.ts:280-295 | With the intended end position: one edit per recorded file, with its transformed text; then the results are empty and `stop` is emitted. |
| AstxRunner.ReplaceIntendedCoversSource | src/AstxRunner.ts:288 | With the intended end position, each edit spans its whole source: up to the last line, at that line's UTF-16 length. |
| AstxRunner.ReplaceExample | src/AstxRunner.ts:288 | For the one-line source `ab`, the source's edit range is (0,0)-(0,0); the intended one is (0,0)-(0,2). |
| AstxRunner.ReplaceAfterRun | src/AstxRunner.ts:246-293 | After a run, `replace` edits exactly the files some result changed, each to its last change, ending at the source's `endPosition` (as written) of the text that change was computed from; a second `replace` then has nothing left to edit. |
| SearchReplaceView.Contribution | src/SearchReplaceView/SearchReplaceViewProvider.ts:80-90 | A result adds its match count to `numMatches`. It adds one to `numFilesWithMatches` exactly when it has matches, one to `numFilesWithErrors` exactly when it has an error, and one to `numFilesThatWillChange` exactly when its transformed text is non-empty and differs from its source; zero otherwise. |
| SearchReplaceView.Apply | src/SearchReplaceView/SearchReplaceViewProvider.ts:71-121 | Each listener keeps `numFilesWithMatches <= numMatches`. `start`, `stop` and `done` leave `completed` and `total` alone. Only `stop` and `result` move the counters. Only `start`, `stop` and `done` move `running`. |
| SearchReplaceView.ApplyAll | src/SearchReplaceView/SearchReplaceViewProvider.ts:35-43 | The invariant `numFilesWithMatches <= numMatches` holds after any sequence of events. |
| SearchReplaceView.ApplyAllIsSummary | src/SearchReplaceView/SearchReplaceViewProvider.ts:35-121 | From the initial status, the status after any events is their summary. The counters count only the results since the last `stop`. `running` is true exactly when the last of `start`/`stop`/`done` is `start`. `completed` and `total` are those of the last `progress`, or 0. |
| SearchReplaceView.DroppedResultInvisible | src/SearchReplaceView/SearchReplaceViewProvider.ts:80-90 | A result the runner drops would not have moved any counter. |
| SearchReplaceView.WillChangeVersusRecorded | src/SearchReplaceView/SearchReplaceViewProvider.ts:81-83 | The view counts a file as changing exactly when the runner records it and the new text is non-empty. A result that empties its file is recorded but not counted. |
| SearchReplaceView.EarlyRunShowsIdle | src/SearchReplaceView/SearchReplaceViewProvider.ts:96-120 | After a run that ends early, the view is idle with zero counters and unchanged progress. |
| SearchReplaceView.FramedEventsShowIdle | src/SearchReplaceView/SearchReplaceViewProvider.ts:71-121 | After `stop`, `start`, events without a `stop`, and `done`, the view is idle and its counters tally exactly the results in between. |
| SearchReplaceView.CompletedRunShowsIdle | src/SearchReplaceView/SearchReplaceViewProvider.ts:96-120 | After a run that scans and reaches its final `done`, the view is idle and its counters tally exactly the results the runner reported. |

## Left out

- Node `path` normalisation: `.`/`..` segments, doubled separators, and trailing separators. For example, `path.basename("/a/")` is `a`, while `PosixPath.Basename` gives the empty text. Likewise `path.join('/a', './test')` is `/a/test` and `path.join('**', 'a//b')` is `**/a/b`, while `PosixPath.Join` keeps `/a/./test` and `**/a//b`. The model's path functions agree with Node's only on normalised paths.
- Windows path separators. Only POSIX `path` is modelled.
- ConvertGlob.JoinPatternsSplitsBack: stated only for globs that are trimmed, non-empty, separator-free and closed. Other globs do not survive a join and split.
- ConvertGlob.ConvertShape: the unit test's concrete case (`src/test/unit/convertGlobPattern.test.ts`) is not restated as a lemma on literals, because evaluating the splitter on its 49-character pattern exceeds the solver budget. Its splitting step is covered symbolically by `SplitGlob.PlainPiecesThenGroup`: five plain globs and `a/{bar,baz}`, which stays one token. Its grouping step is covered by `ConvertShape` and `ClassifyByBasename`.
- The VS Code host:
  - the workspace folders are a parameter;
  - not modelled: `resolveFsPath` of the transform file, logging to the output channel, `vscode.Uri.file`, `workspace.applyEdit`, and the open-document cache.
- The worker pool, `await this.startupPromise`, the abort signal checks, the `error` event, `invertIpcError`, `debounce`/`runSoon`, `setParams` with `isEqual`, `restart`, `startup` and `shutdown`. These are asynchronous control and concurrency. `AstxRunner.Run` models only the synchronous start of `run`.
- EndPosition: text holding an unpaired UTF-16 surrogate is not modelled, because a Dafny string holds Unicode scalar values only.
- AstxRunner.RunToEnd: the abort checks before and after the loop (`signal?.aborted`) are not modelled, so every scanning run reaches `done`.
- AstxRunner.Replace: the edits are a map keyed by file. The iteration order of the source's `Map` is not modelled.
- AstxRunner.WorkerResult: the source default `source = ''` applies to an absent source only. A `null` source is not distinguished. `matches` and `reports` are counts, since only their lengths are read.
- SearchReplaceView.Apply: `completed` and `total` are natural numbers, while the source's are JavaScript numbers. Posting the status to the webview, the webview's messages (`mount`, `values`, `replace`) and the progress bar's floating-point width are not modelled.
- `src/extension/AstxRunner.ts` and the other older copies under `src/extension/` (apart from the converter) are not part of this model.

## Findings

| source | as written | input that shows it | evidently intended | confidence | as-written member | corrected member |
|---|---|---|---|---|---|---|
| src/AstxRunner.ts:299-300 | `line` and `column` start at 0, so text without a line terminator ends at (0,0). `replace` then edits the empty range (0,0)-(0,0) and inserts the transformed text before the old one instead of replacing it. | `"ab"` ends at (0,0) | a single-line text ends at (0, `s.length`) | high; not executed | EndPosition.EndPositionAsWritten, EndPosition.SingleLineExample, AstxRunner.Replace, AstxRunner.ReplaceSingleLineInserts | EndPosition.EndPosition, EndPosition.EndPositionIsEnd, AstxRunner.ReplaceIntended, AstxRunner.ReplaceIntendedCoversSource |
| src/AstxRunner.ts:305 | `column = s.length - match.index + match[0].length` adds the terminator's length instead of subtracting it | `"a\nbc"` ends at (1,4), past the two characters of the last line | `s.length - (match.index + match[0].length)`, the length of the last line | medium: the host may clamp a column past the end of the line; not executed | EndPosition.EndPositionAsWritten, EndPosition.SecondLineExample, EndPosition.SurrogatePairExample | EndPosition.EndPosition, EndPosition.EndPositionIsEnd |

=== FILE: astx_runner.dfy ===
/**
 * The decisions of `AstxRunner` in `src/AstxRunner.ts` that do not depend
 * on the host: which worker results are reported and which are recorded
 * for `replace`, when `run` ends before scanning, which include and
 * exclude globs it hands to the worker pool, and how `stop` and `replace`
 * empty the recorded results.
 *
 * The runner is a state (`transformResults`) and a list of emitted events.
 * The worker pool is not modelled: its output is a parameter, a sequence
 * of progress and result messages.
 */
module AstxRunner {
  import opened Text
  import opened Optional
  import ConvertGlob
  import SplitGlob
  import EndPosition

  // ---------------------------------------------------------------------
  // Worker messages and runner events
  // ---------------------------------------------------------------------

  /** `next.result` of a worker message. An absent `matches` or `reports`
      array has count 0 (`matches?.length`); `error` records whether an
      error is present. */
  datatype WorkerResult = WorkerResult(
    file: string,
    source: Option<string>,
    transformed: Option<string>,
    matches: nat,
    reports: nat,
    error: bool)
  {
    /** `source = ''`: an absent source is the empty text. */
    function Source(): string {
      source.GetOr([])
    }

    /** `transformed != null && transformed !== source`. */
    predicate Changes() {
      transformed.Some? && transformed.value != Source()
    }

    /** The guard of the `continue` at the top of the loop body. */
    predicate Dropped() {
      matches == 0 && reports == 0 && !error && (transformed.None? || transformed.value == Source())
    }
  }

  /** A message of `pool.runTransform`. */
  datatype Message =
    | ProgressMessage(completed: nat, total: nat)
    | ResultMessage(result: WorkerResult)

  /** `TransformResultEvent`. */
  datatype ResultEvent = ResultEvent(
    file: string,
    source: string,
    transformed: Option<string>,
    matches: nat,
    reports: nat,
    error: bool)

  /** The events of `AstxRunnerEvents` that carry the status. */
  datatype Event =
    | Start
    | Stop
    | Done
    | Progress(completed: nat, total: nat)
    | Result(result: ResultEvent)

  /** One entry of `transformResults`. */
  datatype Change = Change(source: string, transformed: string)

  /** `transformResults`, keyed by file. */
  type Results = map<string, Change>

  /** The runner's state and what it emitted. */
  datatype Outcome = Outcome(results: Results, events: seq<Event>)

  // ---------------------------------------------------------------------
  // One worker result
  // ---------------------------------------------------------------------

  /** The event emitted for a kept result. */
  function ToEvent(r: WorkerResult): ResultEvent {
    ResultEvent(r.file, r.Source(), r.transformed, r.matches, r.reports, r.error)
  }

  /** The loop body for a result message: a dropped result is skipped; a
      kept one is recorded when it changes the file, and reported. */
  function OnResult(results: Results, r: WorkerResult): (out: Outcome)
    ensures out.events == if r.Dropped() then [] else [Result(ToEvent(r))]
    ensures out.results.Keys == results.Keys + (if r.Changes() then {r.file} else {})
    ensures r.Changes() ==> out.results[r.file] == Change(r.Source(), r.transformed.value)
    ensures forall f :: f in results && (f != r.file || !r.Changes()) ==> out.results[f] == results[f]
  {
    if r.Dropped() then Outcome(results, [])
    else
      var recorded := if r.Changes() then results[r.file := Change(r.Source(), r.transformed.value)] else results;
      Outcome(recorded, [Result(ToEvent(r))])
  }

  /** A result is reported exactly when it has a match, a report, an error
      or a change; in particular every recorded result is reported. */
  lemma KeptIff(r: WorkerResult)
    ensures !r.Dropped() <==> r.matches > 0 || r.reports > 0 || r.error || r.Changes()
    ensures r.Changes() ==> !r.Dropped()
  {
  }

  // ---------------------------------------------------------------------
  // The stream of worker messages
  // ---------------------------------------------------------------------

  /** The `for await` loop over the messages, left to right. */
  function Process(results: Results, msgs: seq<Message>): (out: Outcome)
    decreases |msgs|
  {
    if msgs == [] then Outcome(results, [])
    else
      var prev := Process(results, msgs[..|msgs| - 1]);
      match msgs[|msgs| - 1]
      case ProgressMessage(c, t) => Outcome(prev.results, prev.events + [Progress(c, t)])
      case ResultMessage(r) =>
        var step := OnResult(prev.results, r);
        Outcome(step.results, prev.events + step.events)
  }

  /** The change of the last result for `file` that changes it, if any. */
  function LastChange(msgs: seq<Message>, file: string): (c: Option<Change>)
    decreases |msgs|
  {
    if msgs == [] then None
    else
      var m := msgs[|msgs| - 1];
      if m.ResultMessage? && m.result.file == file && m.result.Changes()
      then Some(Change(m.result.Source(), m.result.transformed.value))
      else LastChange(msgs[..|msgs| - 1], file)
  }

  /** The events one message gives rise to: progress passes through, a
      dropped result vanishes, a kept result is reported. */
  function EventsOf(m: Message): seq<Event> {
    match m
    case ProgressMessage(c, t) => [Progress(c, t)]
    case ResultMessage(r) => if r.Dropped() then [] else [Result(ToEvent(r))]
  }

  /** The events of the messages, read one at a time from the front. */
  function Reported(msgs: seq<Message>): seq<Event>
    decreases |msgs|
  {
    if msgs == [] then [] else EventsOf(msgs[0]) + Reported(msgs[1..])
  }

  lemma {:induction false} ReportedSnoc(msgs: seq<Message>, m: Message)
    ensures Reported(msgs + [m]) == Reported(msgs) + EventsOf(m)
    decreases |msgs|
  {
    if msgs == [] {
      assert [m][1..] == [];
      assert Reported([m]) == EventsOf(m) + [];
    } else {
      var ms := msgs + [m];
      assert ms[0] == msgs[0] && ms[1..] == msgs[1..] + [m];
      ReportedSnoc(msgs[1..], m);
      ConcatAssoc(EventsOf(msgs[0]), Reported(msgs[1..]), EventsOf(m));
    }
  }

  /** Starting from `results`, the loop emits the reported events in
      order, and afterwards a file is recorded with the change of its last
      changing result, or keeps what it had when no result changed it. */
  lemma {:induction false} ProcessIsRecordOfLastChange(results: Results, msgs: seq<Message>)
    ensures Process(results, msgs).events == Reported(msgs)
    ensures forall f ::
              var out := Process(results, msgs).results;
              && (f in out <==> f in results || LastChange(msgs, f).Some?)
              && (f in out ==> out[f] == if LastChange(msgs, f).Some? then LastChange(msgs, f).value else results[f])
    decreases |msgs|
  {
    if msgs != [] {
      var init := msgs[..|msgs| - 1];
      ProcessIsRecordOfLastChange(results, init);
      ReportedSnoc(init, msgs[|msgs| - 1]);
      assert init + [msgs[|msgs| - 1]] == msgs;
    }
  }

  // ---------------------------------------------------------------------
  // run, stop and replace
  // ---------------------------------------------------------------------

  /** The fields of `Params` that `run` reads; an absent `useTransformFile`
      is false. */
  datatype Params = Params(
    find: Option<string>,
    useTransformFile: bool,
    transformFile: Option<string>,
    includePattern: Option<string>,
    excludePattern: Option<string>)

  /** JavaScript truthiness of an optional string. */
  predicate Truthy(s: Option<string>) {
    s.Some? && s.value != []
  }

  /** `paths` and `exclude` of the worker-pool call. */
  datatype Query = Query(paths: seq<string>, exclude: Option<string>)

  /** What `run` leaves behind: the state, the events it emitted and the
      query it starts the pool with, absent when it ends early. */
  datatype RunOutcome = RunOutcome(results: Results, events: seq<Event>, query: Option<Query>)

  /** `stop()`: the results are cleared and `stop` is emitted. */
  function StopRunner(results: Results): (out: Outcome)
    ensures out.results == map[] && out.events == [Stop]
  {
    Outcome(map[], [Stop])
  }

  /** The include and exclude globs: a non-empty user pattern is converted,
      an absent or empty include covers the workspace folders, and an
      absent or empty exclude is left out. */
  function Globs(params: Params, folders: seq<string>): Query {
    Query(
      [if Truthy(params.includePattern) then ConvertGlob.ConvertGlobPattern(params.includePattern.value, folders)
      else ConvertGlob.JoinPatterns(folders)],
      if Truthy(params.excludePattern) then Some(ConvertGlob.ConvertGlobPattern(params.excludePattern.value, folders))
      else None)
  }

  /** The synchronous part of `run()`: `stop`, `start`, then the three
      early exits in the source's order, each ending with `done`. */
  function Run(results: Results, params: Params, folders: seq<string>): (out: RunOutcome)
    ensures out.results == map[]
    ensures |out.events| >= 2 && out.events[..2] == [Stop, Start]
  {
    var stopped := StopRunner(results);
    var started := stopped.events + [Start];
    if folders == [] then RunOutcome(stopped.results, started + [Done], None)
    else if params.useTransformFile then
      if !Truthy(params.transformFile) then RunOutcome(stopped.results, started + [Done], None)
      else RunOutcome(stopped.results, started, Some(Globs(params, folders)))
    else if params.find.None? || Trim(params.find.value) == [] then
      RunOutcome(stopped.results, started + [Done], None)
    else RunOutcome(stopped.results, started, Some(Globs(params, folders)))
  }

  /** `run` ends with `done` before scanning exactly when there is no
      workspace folder, or a transform file is asked for but not given, or
      the find expression is missing or blank while no transform file is
      asked for; otherwise it queries the pool with the chosen globs. */
  lemma RunEndsEarlyIff(results: Results, params: Params, folders: seq<string>)
    ensures var out := Run(results, params, folders);
            var early := || folders == []
                         || (params.useTransformFile && (params.transformFile.None? || params.transformFile.value == []))
                         || (!params.useTransformFile && (params.find.None? || AllSpace(params.find.value)));
            && (early <==> out.query.None?)
            && (early <==> out.events == [Stop, Start, Done])
            && (!early ==> out.events == [Stop, Start] && out.query == Some(Globs(params, folders)))
  {
    if params.find.Some? {
      TrimEmptyIffAllSpace(params.find.value);
    }
  }

  /** The globs read back into what they stand for. With no include
      pattern the workspace folders are the include, and the splitter
      recovers them from it; with one, the converter's output is the
      include, and a blank one matches nothing. An exclude is passed
      exactly when a non-empty exclude pattern is given. */
  lemma GlobsReadBack(params: Params, folders: seq<string>)
    requires forall k :: 0 <= k < |folders| ==> SplitGlob.IsClosedToken(folders[k])
    ensures var q := Globs(params, folders);
            && |q.paths| == 1
            && (!Truthy(params.includePattern) && |folders| == 1 ==> SplitGlob.SplitGlobPattern(q.paths[0]) == folders)
            && (!Truthy(params.includePattern) && |folders| != 1 ==>
                  var p := q.paths[0];
                  |p| >= 2 && p[0] == '{' && p[|p| - 1] == '}' && SplitGlob.SplitGlobPattern(p[1..|p| - 1]) == folders)
            && (Truthy(params.includePattern) ==> q.paths[0] == ConvertGlob.ConvertGlobPattern(params.includePattern.value, folders))
            && (Truthy(params.includePattern) && AllSpace(params.includePattern.value) ==> q.paths == ["{}"])
            && (q.exclude.None? <==> params.excludePattern.None? || params.excludePattern.value == [])
            && (q.exclude.Some? ==> q.exclude.value == ConvertGlob.ConvertGlobPattern(params.excludePattern.value, folders))
  {
    DefaultIncludeReadBack(folders);
    if Truthy(params.includePattern) && AllSpace(params.includePattern.value) {
      ConvertGlob.BlankConvertsToEmptyAlternation(params.includePattern.value, folders);
    }
  }

  /** `joinPatterns(workspaceFolders)` splits back into the folders. */
  lemma DefaultIncludeReadBack(folders: seq<string>)
    requires forall k :: 0 <= k < |folders| ==> SplitGlob.IsClosedToken(folders[k])
    ensures var p := ConvertGlob.JoinPatterns(folders);
            && (|folders| == 1 ==> SplitGlob.SplitGlobPattern(p) == folders)
            && (|folders| != 1 ==> |p| >= 2 && p[0] == '{' && p[|p| - 1] == '}' && SplitGlob.SplitGlobPattern(p[1..|p| - 1]) == folders)
  {
    if |folders| == 1 {
      SplitGlob.ClosedTokenAlone(folders[0]);
    } else {
      ConvertGlob.JoinPatternsSplitsBack(folders);
    }
  }

  /** A whole `run()`: its synchronous part, then, unless that ended early,
      the loop over the worker's messages and the final `done`. */
  function RunToEnd(results: Results, params: Params, folders: seq<string>, msgs: seq<Message>): (out: Outcome)
    ensures |out.events| >= 3 && out.events[..2] == [Stop, Start]
    ensures out.events[|out.events| - 1] == Done
  {
    var r := Run(results, params, folders);
    if r.query.None? then Outcome(r.results, r.events)
    else
      var p := Process(r.results, msgs);
      Outcome(p.results, r.events + p.events + [Done])
  }

  /** A run that scans reports the worker's kept results between `start`
      and `done`, and `done` appears nowhere else. */
  lemma RunToEndEvents(results: Results, params: Params, folders: seq<string>, msgs: seq<Message>)
    requires Run(results, params, folders).query.Some?
    ensures RunToEnd(results, params, folders, msgs).events == [Stop, Start] + Reported(msgs) + [Done]
    ensures forall k :: 0 <= k < |Reported(msgs)| ==> Reported(msgs)[k].Progress? || Reported(msgs)[k].Result?
  {
    RunEndsEarlyIff(results, params, folders);
    ProcessIsRecordOfLastChange(map[], msgs);
    ReportedOnlyProgressAndResults(msgs);
  }

  /** The messages give rise to `progress` and `result` events only. */
  lemma {:induction false} ReportedOnlyProgressAndResults(msgs: seq<Message>)
    ensures forall k :: 0 <= k < |Reported(msgs)| ==> Reported(msgs)[k].Progress? || Reported(msgs)[k].Result?
    decreases |msgs|
  {
    if msgs != [] {
      ReportedOnlyProgressAndResults(msgs[1..]);
      var e, rest := EventsOf(msgs[0]), Reported(msgs[1..]);
      assert Reported(msgs) == e + rest;
      assert forall k :: 0 <= k < |e| ==> e[k].Progress? || e[k].Result?;
      forall k | 0 <= k < |e + rest|
        ensures (e + rest)[k].Progress? || (e + rest)[k].Result?
      {
        if k >= |e| {
          assert (e + rest)[k] == rest[k - |e|];
        }
      }
    }
  }

  /** `vscode.Range`. */
  datatype Range = Range(start: EndPosition.Position, end: EndPosition.Position)

  /** One `edit.replace(uri, range, transformed)`. */
  datatype Edit = Edit(range: Range, text: string)

  /** `replace()`: one edit per recorded file, from the start of the file
      to the source's `endPosition` as written, with the transformed text;
      then the results are cleared and `stop` is emitted. The range covers
      the whole file only when the source's last line is as long as the
      source's `endPosition` claims; on a source without line terminators
      it is empty, so the edit inserts the transformed text in front of the
      old one (see `ReplaceSingleLineInserts`). */
  function Replace(results: Results): (out: (map<string, Edit>, Outcome))
    ensures out.0.Keys == results.Keys
    ensures forall f :: f in results ==>
              && out.0[f].text == results[f].transformed
              && out.0[f].range.start == EndPosition.Position(0, 0)
              && out.0[f].range.end == EndPosition.EndPositionAsWritten(results[f].source)
    ensures out.1 == Outcome(map[], [Stop])
  {
    var edits := map f | f in results :: Edit(Range(EndPosition.Position(0, 0), EndPosition.EndPositionAsWritten(results[f].source)), results[f].transformed);
    (edits, StopRunner(results))
  }

  /** On a recorded source without CR or LF, the edit's range is empty:
      nothing of the old text is replaced. */
  lemma ReplaceSingleLineInserts(results: Results, f: string)
    requires f in results
    requires forall k :: 0 <= k < |results[f].source| ==> results[f].source[k] != '\r' && results[f].source[k] != '\n'
    ensures Replace(results).0[f].range == Range(EndPosition.Position(0, 0), EndPosition.Position(0, 0))
  {
    EndPosition.NoTerminatorAsWritten(results[f].source);
  }

  /** `replace()` with the intended end position. */
  function ReplaceIntended(results: Results): (out: (map<string, Edit>, Outcome))
    ensures out.0.Keys == results.Keys
    ensures forall f :: f in results ==> out.0[f].text == results[f].transformed
    ensures out.1 == Outcome(map[], [Stop])
  {
    var edits := map f | f in results :: Edit(Range(EndPosition.Position(0, 0), EndPosition.EndPosition(results[f].source)), results[f].transformed);
    (edits, StopRunner(results))
  }

  /** With the intended end, every edit spans its whole source: from the
      start to the last line, at that line's length in code units. */
  lemma ReplaceIntendedCoversSource(results: Results)
    ensures forall f :: f in results ==>
              var r := ReplaceIntended(results).0[f].range;
              var src := results[f].source;
              && r.start == EndPosition.Position(0, 0)
              && r.end.line == EndPosition.BreaksFrom(src, 0)
              && r.end.character == EndPosition.Utf16Len(src[EndPosition.LastLineStart(src)..])
  {
    forall f | f in results {
      EndPosition.EndPositionIsEnd(results[f].source);
    }
  }

  /** One file whose source is the line `ab`: the source's edit is the
      empty range at the start, the intended one covers both characters. */
  lemma ReplaceExample()
    ensures Replace(map["a.ts" := Change("ab", "x")]).0["a.ts"].range == Range(EndPosition.Position(0, 0), EndPosition.Position(0, 0))
    ensures ReplaceIntended(map["a.ts" := Change("ab", "x")]).0["a.ts"].range == Range(EndPosition.Position(0, 0), EndPosition.Position(0, 2))
  {
    EndPosition.SingleLineExample();
  }

  /** After a run, `replace` edits exactly the files that some result
      changed, each to the text of its last change, ending at the source's
      `endPosition` of the text that change was computed from. */
  lemma ReplaceAfterRun(results: Results, params: Params, folders: seq<string>, msgs: seq<Message>)
    requires Run(results, params, folders).query.Some?
    ensures var recorded := Process(Run(results, params, folders).results, msgs).results;
            var edits := Replace(recorded).0;
            && (forall f :: f in edits <==> LastChange(msgs, f).Some?)
            && (forall f :: f in edits ==>
                  var c := LastChange(msgs, f).value;
                  edits[f].text == c.transformed && edits[f].range.end == EndPosition.EndPositionAsWritten(c.source))
            && Replace(Replace(recorded).1.results).0 == map[]
  {
    ProcessIsRecordOfLastChange(map[], msgs);
  }
}

=== FILE: convert_glob.dfy ===
/**
 * `joinPatterns` and `convertGlobPattern` of
 * `src/extension/convertGlobPattern.ts`.
 *
 * The converter splits the user's pattern list, sorts every token into
 * one of three groups (absolute, relative to a named workspace folder,
 * general) and assembles one brace alternation. `BuildPlan` is the
 * source's single pass over the tokens, with the folder buckets kept as a
 * map plus its key order (the insertion order of the source's `Map`).
 * `Absolutes`, `Generals`, `FolderOrder` and `RelsFor` describe the same
 * groups independently, as filters of the token list, and
 * `PlanIsGrouping` proves the two agree.
 */
module ConvertGlob {
  import opened Text
  import opened Optional
  import PosixPath
  import SplitGlob

  // ---------------------------------------------------------------------
  // joinPatterns
  // ---------------------------------------------------------------------

  /** `joinPatterns(patterns)`: one pattern stays as it is; any other
      number (none included) becomes a brace alternation. */
  function JoinPatterns(ps: seq<string>): (r: string)
    ensures |ps| == 1 ==> r == ps[0]
    ensures |ps| != 1 ==> r == ['{'] + JoinWith(ps, ',') + ['}']
    ensures ps == [] ==> r == "{}"
  {
    if |ps| == 1 then ps[0] else ['{'] + JoinWith(ps, ',') + ['}']
  }

  /** A brace alternation is read back by the splitter: the text between
      the braces splits into exactly the joined globs, in order. */
  lemma JoinPatternsSplitsBack(ps: seq<string>)
    requires |ps| != 1
    requires forall k :: 0 <= k < |ps| ==> SplitGlob.IsClosedToken(ps[k])
    ensures var r := JoinPatterns(ps);
            |r| >= 2 && r[0] == '{' && r[|r| - 1] == '}'
            && SplitGlob.SplitGlobPattern(r[1..|r| - 1]) == ps
  {
    var r := JoinPatterns(ps);
    assert r[1..|r| - 1] == JoinWith(ps, ',');
    SplitGlob.SplitJoinRoundTrip(ps);
  }

  // ---------------------------------------------------------------------
  // The folder lookup `byName`
  // ---------------------------------------------------------------------

  /** `new Map(workspaceFolders.map((f) => [path.basename(f), f]))`: the
      entries are set in list order, so a later folder overwrites an
      earlier one with the same basename. */
  function ByName(folders: seq<string>): map<string, string>
    decreases |folders|
  {
    if folders == [] then map[]
    else
      var last := folders[|folders| - 1];
      ByName(folders[..|folders| - 1])[PosixPath.Basename(last) := last]
  }

  /** The index of the last folder whose basename is `name`. */
  function LastNamed(folders: seq<string>, name: string): (r: Option<nat>)
    ensures r.Some? ==> r.value < |folders| && PosixPath.Basename(folders[r.value]) == name
    ensures r.Some? ==> forall k :: r.value < k < |folders| ==> PosixPath.Basename(folders[k]) != name
    ensures r.None? ==> forall k :: 0 <= k < |folders| ==> PosixPath.Basename(folders[k]) != name
    decreases |folders|
  {
    if folders == [] then None
    else if PosixPath.Basename(folders[|folders| - 1]) == name then Some(|folders| - 1)
    else LastNamed(folders[..|folders| - 1], name)
  }

  /** The lookup finds a name exactly when some folder has it as basename,
      and then yields the last such folder. */
  lemma {:induction false} ByNameLastWins(folders: seq<string>, name: string)
    ensures name in ByName(folders) <==> LastNamed(folders, name).Some?
    ensures name in ByName(folders) ==> ByName(folders)[name] == folders[LastNamed(folders, name).value]
    decreases |folders|
  {
    if folders != [] {
      ByNameLastWins(folders[..|folders| - 1], name);
    }
  }

  // ---------------------------------------------------------------------
  // Classifying one token
  // ---------------------------------------------------------------------

  /** The three groups a token can fall into. */
  datatype Kind =
    | Absolute(pattern: string)
    | InFolder(folder: string, rest: string)
    | General(pattern: string)

  /** `pattern.startsWith('.') ? pattern : path.join('**', pattern)`. */
  function GeneralForm(t: string): string {
    if StartsWith(t, ".") then t else PosixPath.Join("**", t)
  }

  /** One turn of the `for` loop: absolute tokens pass through; a token
      whose first segment names a folder (a non-empty one: the source tests
      the looked-up path for truthiness) goes to that folder without its
      first segment; everything else is general. */
  function Classify(t: string, byName: map<string, string>): Kind {
    if PosixPath.IsAbsolute(t) then Absolute(t)
    else
      var base := PosixPath.FirstSegment(t);
      if base in byName && byName[base] != [] then InFolder(byName[base], PosixPath.DropFirstSegment(t))
      else General(GeneralForm(t))
  }

  /** Every token of the split, classified, in order. */
  function ClassifyAll(tokens: seq<string>, byName: map<string, string>): (ks: seq<Kind>)
    ensures |ks| == |tokens|
    ensures forall i :: 0 <= i < |tokens| ==> ks[i] == Classify(tokens[i], byName)
  {
    seq(|tokens|, i requires 0 <= i < |tokens| => Classify(tokens[i], byName))
  }

  /** A token goes to a folder exactly when it is relative and its first
      segment is the basename of some folder; the folder is the last one
      with that basename, and the token loses its first segment. Otherwise
      a relative token is general: kept when it starts with `.`, and
      prefixed with `**` and a separator when not. */
  lemma ClassifyByBasename(t: string, folders: seq<string>)
    requires t != []
    ensures var k, named := Classify(t, ByName(folders)), LastNamed(folders, PosixPath.FirstSegment(t));
            && (k.Absolute? <==> PosixPath.IsAbsolute(t))
            && (k.Absolute? ==> k.pattern == t)
            && (k.InFolder? <==> !PosixPath.IsAbsolute(t) && named.Some?)
            && (k.InFolder? ==> k.folder == folders[named.value] && k.rest == PosixPath.DropFirstSegment(t))
            && (k.General? ==> k.pattern == (if t[0] == '.' then t else "**/" + t))
  {
    var base := PosixPath.FirstSegment(t);
    ByNameLastWins(folders, base);
    if !PosixPath.IsAbsolute(t) {
      PosixPath.FirstSegmentOfRelative(t);
      var named := LastNamed(folders, base);
      if named.Some? {
        var f := folders[named.value];
        assert PosixPath.Basename(f) == base;
        assert f != [];
      }
      assert StartsWith(t, ".") <==> t[0] == '.';
    }
  }

  // ---------------------------------------------------------------------
  // The single pass over the tokens
  // ---------------------------------------------------------------------

  /** `specificFolderPatterns`: a JavaScript `Map` from folder to its
      patterns, which iterates its keys in order of first insertion. */
  datatype Buckets = Buckets(order: seq<string>, patterns: map<string, seq<string>>)

  ghost predicate Distinct(xs: seq<string>) {
    forall a, b :: 0 <= a < b < |xs| ==> xs[a] != xs[b]
  }

  /** Every key is listed once, and the listed keys are the map's keys. */
  ghost predicate ValidBuckets(bs: Buckets) {
    && Distinct(bs.order)
    && (forall f :: f in bs.patterns <==> f in bs.order)
  }

  /** The loop's state: `resultPatterns` so far (the absolute tokens),
      `specificFolderPatterns` and `generalPatterns`. */
  datatype Plan = Plan(absolute: seq<string>, buckets: Buckets, general: seq<string>)

  const EmptyPlan := Plan([], Buckets([], map[]), [])

  /** `specificFolderPatterns.get(folder)`, creating the bucket at the end
      of the key order when missing, then `push(rel)`. */
  function AddToBucket(bs: Buckets, folder: string, rel: string): (r: Buckets)
    requires ValidBuckets(bs)
    ensures ValidBuckets(r)
    ensures r.order == if folder in bs.order then bs.order else bs.order + [folder]
    ensures r.patterns[folder] == (if folder in bs.patterns then bs.patterns[folder] else []) + [rel]
    ensures forall f :: f in bs.patterns && f != folder ==> r.patterns[f] == bs.patterns[f]
  {
    if folder in bs.patterns then
      Buckets(bs.order, bs.patterns[folder := bs.patterns[folder] + [rel]])
    else
      Buckets(bs.order + [folder], bs.patterns[folder := [rel]])
  }

  /** The loop body for one classified token. */
  function Add(plan: Plan, k: Kind): (r: Plan)
    requires ValidBuckets(plan.buckets)
    ensures ValidBuckets(r.buckets)
  {
    match k
    case Absolute(t) => plan.(absolute := plan.absolute + [t])
    case InFolder(f, rel) => plan.(buckets := AddToBucket(plan.buckets, f, rel))
    case General(g) => plan.(general := plan.general + [g])
  }

  /** The `for` loop over all tokens, left to right. */
  function BuildPlan(ks: seq<Kind>): (plan: Plan)
    ensures ValidBuckets(plan.buckets)
    decreases |ks|
  {
    if ks == [] then EmptyPlan
    else Add(BuildPlan(ks[..|ks| - 1]), ks[|ks| - 1])
  }

  /** One `folder/joinPatterns(patterns)` alternative per bucket, in key
      order. */
  function BucketAlternatives(bs: Buckets): (alts: seq<string>)
    requires ValidBuckets(bs)
    ensures |alts| == |bs.order|
  {
    seq(|bs.order|, j requires 0 <= j < |bs.order| =>
        PosixPath.Join(bs.order[j], JoinPatterns(bs.patterns[bs.order[j]])))
  }

  /** The alternatives pushed after the loop, in order: the absolute
      tokens, one per bucket, and, when there are general patterns,
      `joinPatterns(folders)/joinPatterns(general)`. */
  function Alternatives(plan: Plan, folders: seq<string>): seq<string>
    requires ValidBuckets(plan.buckets)
  {
    plan.absolute
    + BucketAlternatives(plan.buckets)
    + (if plan.general != [] then [PosixPath.Join(JoinPatterns(folders), JoinPatterns(plan.general))] else [])
  }

  /** `convertGlobPattern(patterns, workspaceFolders)`. */
  function ConvertGlobPattern(patterns: string, folders: seq<string>): string {
    var ks := ClassifyAll(SplitGlob.SplitGlobPattern(patterns), ByName(folders));
    JoinPatterns(Alternatives(BuildPlan(ks), folders))
  }

  // ---------------------------------------------------------------------
  // The groups, described as filters of the classified tokens
  // ---------------------------------------------------------------------

  /** The absolute tokens, in input order. */
  function Absolutes(ks: seq<Kind>): seq<string> {
    if ks == [] then []
    else Absolutes(ks[..|ks| - 1]) + (if ks[|ks| - 1].Absolute? then [ks[|ks| - 1].pattern] else [])
  }

  /** The general patterns, in input order. */
  function Generals(ks: seq<Kind>): seq<string> {
    if ks == [] then []
    else Generals(ks[..|ks| - 1]) + (if ks[|ks| - 1].General? then [ks[|ks| - 1].pattern] else [])
  }

  /** The remainders of the tokens that go to `folder`, in input order. */
  function RelsFor(ks: seq<Kind>, folder: string): seq<string> {
    if ks == [] then []
    else
      var k := ks[|ks| - 1];
      RelsFor(ks[..|ks| - 1], folder) + (if k.InFolder? && k.folder == folder then [k.rest] else [])
  }

  /** The folders that receive a token, each once, in order of their first
      token. */
  function FolderOrder(ks: seq<Kind>): (fs: seq<string>)
    ensures Distinct(fs)
  {
    if ks == [] then []
    else
      var prev := FolderOrder(ks[..|ks| - 1]);
      var k := ks[|ks| - 1];
      if k.InFolder? && k.folder !in prev then prev + [k.folder] else prev
  }

  /** A folder receives a token exactly when it is in `FolderOrder`. */
  lemma {:induction false} FolderOrderHasFolders(ks: seq<Kind>, folder: string)
    ensures folder in FolderOrder(ks) <==> RelsFor(ks, folder) != []
    decreases |ks|
  {
    if ks != [] {
      FolderOrderHasFolders(ks[..|ks| - 1], folder);
    }
  }

  /** The pass builds exactly the three groups: the absolute tokens in
      order, one bucket per folder in order of its first token holding that
      folder's remainders in order, and the general patterns in order. */
  lemma {:induction false} PlanIsGrouping(ks: seq<Kind>)
    ensures var plan := BuildPlan(ks);
            && plan.absolute == Absolutes(ks)
            && plan.general == Generals(ks)
            && plan.buckets.order == FolderOrder(ks)
            && forall f :: f in plan.buckets.patterns ==> plan.buckets.patterns[f] == RelsFor(ks, f)
    decreases |ks|
  {
    if ks != [] {
      var init := ks[..|ks| - 1];
      var k := ks[|ks| - 1];
      PlanIsGrouping(init);
      if k.InFolder? {
        FolderOrderHasFolders(init, k.folder);
      }
    }
  }

  /** The output is `joinPatterns` of the alternatives: first every
      absolute token verbatim and in input order, then
      `folder/joinPatterns(remainders)` for each folder in order of its
      first token, then one alternative for all general patterns when
      there is one; nothing else. */
  lemma ConvertShape(patterns: string, folders: seq<string>)
    ensures var ks := ClassifyAll(SplitGlob.SplitGlobPattern(patterns), ByName(folders));
            var order := FolderOrder(ks);
            var alts := Absolutes(ks)
                        + seq(|order|, j requires 0 <= j < |order| =>
                              PosixPath.Join(order[j], JoinPatterns(RelsFor(ks, order[j]))))
                        + (if Generals(ks) != [] then [PosixPath.Join(JoinPatterns(folders), JoinPatterns(Generals(ks)))] else []);
            && ConvertGlobPattern(patterns, folders) == JoinPatterns(alts)
            && |alts| == |Absolutes(ks)| + |order| + (if Generals(ks) != [] then 1 else 0)
  {
    var ks := ClassifyAll(SplitGlob.SplitGlobPattern(patterns), ByName(folders));
    var plan := BuildPlan(ks);
    PlanIsGrouping(ks);
    var order := FolderOrder(ks);
    var reference := seq(|order|, j requires 0 <= j < |order| =>
                         PosixPath.Join(order[j], JoinPatterns(RelsFor(ks, order[j]))));
    assert BucketAlternatives(plan.buckets) == reference by {
      forall j | 0 <= j < |order|
        ensures BucketAlternatives(plan.buckets)[j] == reference[j]
      {
        assert order[j] in plan.buckets.patterns;
      }
    }
  }

  /** An empty or blank pattern list converts to the empty alternation
      `{}`, not to the empty string. */
  lemma BlankConvertsToEmptyAlternation(patterns: string, folders: seq<string>)
    requires AllSpace(patterns)
    ensures ConvertGlobPattern(patterns, folders) == "{}"
  {
    SplitGlob.BlankPatternNoTokens(patterns);
    assert ClassifyAll([], ByName(folders)) == [];
    assert BucketAlternatives(EmptyPlan.buckets) == [];
  }
}

=== FILE: end_position.dfy ===
/**
 * `endPosition` of `src/AstxRunner.ts`: the line and column at the end of
 * a text, found by walking the matches of the regular expression
 * `/\r\n?|\n/g` left to right.
 *
 * `EndPositionAsWritten` is the function as the source writes it.
 * `EndPosition` is the evidently intended one, whose column is the length
 * of the last line. `AstxRunner.Replace` uses `EndPositionAsWritten`, as
 * the source does; `AstxRunner.ReplaceIntended` uses `EndPosition`. Both
 * are checked against a description that does not scan: `IsBreakStart`
 * marks the characters where a line terminator begins.
 *
 * JavaScript's `s.length` and `match.index`, and the columns of
 * `vscode.Position`, count UTF-16 code units, while a Dafny string counts
 * characters; `Utf16Len` converts, and every column here is in code units.
 */
module EndPosition {
  import opened Optional

  /** `vscode.Position`: a zero-based line and character offset. */
  datatype Position = Position(line: nat, character: nat)

  /** The UTF-16 code units of one character: a surrogate pair for a
      character beyond U+FFFF, one unit otherwise. */
  function Units(c: char): (n: nat)
    ensures 1 <= n <= 2
    ensures n == 2 <==> c as int > 0xFFFF
  {
    if c as int > 0xFFFF then 2 else 1
  }

  /** `s.length`: the number of UTF-16 code units of `s`. */
  function Utf16Len(s: string): (n: nat)
    ensures |s| <= n <= 2 * |s|
  {
    if s == [] then 0 else Units(s[0]) + Utf16Len(s[1..])
  }

  /** Code units add up over concatenation. */
  lemma {:induction false} Utf16LenConcat(a: string, b: string)
    ensures Utf16Len(a + b) == Utf16Len(a) + Utf16Len(b)
    decreases |a|
  {
    if a == [] {
      assert a + b == b;
    } else {
      Utf16LenConcat(a[1..], b);
      assert (a + b)[0] == a[0] && (a + b)[1..] == a[1..] + b;
    }
  }

  /** The code-unit index of `s[i]` plus the code units from there on is
      the length of `s`. */
  lemma Utf16LenSplit(s: string, i: nat)
    requires i <= |s|
    ensures Utf16Len(s) == Utf16Len(s[..i]) + Utf16Len(s[i..])
  {
    var a, b := s[..i], s[i..];
    assert s == a + b;
    Utf16LenConcat(a, b);
  }

  /** `s.length - j`: the code units of `s[j..]`, counted by index. */
  function UnitsFrom(s: string, j: nat): nat
    decreases |s| - j
  {
    if j >= |s| then 0 else Units(s[j]) + UnitsFrom(s, j + 1)
  }

  /** Counting from an index is counting the slice. */
  lemma {:induction false} UnitsFromIsLen(s: string, j: nat)
    requires j <= |s|
    ensures UnitsFrom(s, j) == Utf16Len(s[j..])
    decreases |s| - j
  {
    if j < |s| {
      UnitsFromIsLen(s, j + 1);
      assert s[j..][1..] == s[j + 1..];
    }
  }

  /** The length of the match of `/\r\n?|\n/` at `s[i]`: 2 for CR LF, 1 for a
      lone CR or LF, 0 when no terminator starts there. */
  function TerminatorAt(s: string, i: nat): (n: nat)
    ensures n <= 2 && (n > 0 ==> i + n <= |s|)
    ensures n > 0 <==> i < |s| && (s[i] == '\r' || s[i] == '\n')
    ensures n == 2 <==> i + 1 < |s| && s[i] == '\r' && s[i + 1] == '\n'
  {
    if i < |s| && s[i] == '\r' then (if i + 1 < |s| && s[i + 1] == '\n' then 2 else 1)
    else if i < |s| && s[i] == '\n' then 1
    else 0
  }

  /** A line terminator starts at `s[k]`: a CR, or an LF that does not
      complete a CR LF pair. */
  predicate IsBreakStart(s: string, k: nat)
    requires k < |s|
  {
    s[k] == '\r' || (s[k] == '\n' && (k == 0 || s[k - 1] != '\r'))
  }

  /** The number of line terminators starting at `i` or later. */
  function BreaksFrom(s: string, i: nat): nat
    decreases |s| - i
  {
    if i >= |s| then 0
    else (if IsBreakStart(s, i) then 1 else 0) + BreaksFrom(s, i + 1)
  }

  /** The start of the last line terminator at `i` or later. */
  function LastBreakFrom(s: string, i: nat): (r: Option<nat>)
    ensures r.Some? ==> i <= r.value < |s| && IsBreakStart(s, r.value)
    ensures r.Some? ==> forall k :: r.value < k < |s| ==> !IsBreakStart(s, k)
    ensures r.None? ==> forall k :: i <= k < |s| ==> !IsBreakStart(s, k)
    decreases |s| - i
  {
    if i >= |s| then None
    else
      var later := LastBreakFrom(s, i + 1);
      if later.Some? then later
      else if IsBreakStart(s, i) then Some(i)
      else None
  }

  /** The scan may resume at `i`: `i` is not the LF of a CR LF pair. */
  predicate AtBoundary(s: string, i: nat) {
    i == 0 || i > |s| || !(i < |s| && s[i - 1] == '\r' && s[i] == '\n')
  }

  /** The `while` loop from index `i`, as written: every match moves to the
      next line and sets the column to `s.length - index + length`, where
      `s.length - index` is the number of code units from the match on. */
  function ScanAsWritten(s: string, i: nat, pos: Position): Position
    decreases |s| - i
  {
    if i >= |s| then pos
    else
      var n := TerminatorAt(s, i);
      if n == 0 then ScanAsWritten(s, i + 1, pos)
      else ScanAsWritten(s, i + n, Position(pos.line + 1, UnitsFrom(s, i) + n))
  }

  /** `endPosition(s)` as the source writes it. */
  function EndPositionAsWritten(s: string): Position {
    ScanAsWritten(s, 0, Position(0, 0))
  }

  /** The LF of a CR LF pair starts no terminator of its own. */
  lemma CrLfSkip(s: string, i: nat)
    requires TerminatorAt(s, i) == 2
    ensures BreaksFrom(s, i + 1) == BreaksFrom(s, i + 2)
    ensures LastBreakFrom(s, i + 1) == LastBreakFrom(s, i + 2)
  {
    assert !IsBreakStart(s, i + 1);
  }

  /** The scan from a boundary counts the terminators ahead and takes its
      column from the last of them, or keeps the column it had. */
  lemma {:induction false} ScanAsWrittenCounts(s: string, i: nat, pos: Position)
    requires AtBoundary(s, i)
    ensures ScanAsWritten(s, i, pos).line == pos.line + BreaksFrom(s, i)
    ensures ScanAsWritten(s, i, pos).character
            == match LastBreakFrom(s, i)
               case None => pos.character
               case Some(k) => UnitsFrom(s, k) + TerminatorAt(s, k)
    decreases |s| - i
  {
    if i < |s| {
      var n := TerminatorAt(s, i);
      if n == 0 {
        ScanAsWrittenCounts(s, i + 1, pos);
      } else {
        var next := Position(pos.line + 1, UnitsFrom(s, i) + n);
        ScanAsWrittenCounts(s, i + n, next);
        if n == 2 {
          CrLfSkip(s, i);
        }
      }
    }
  }

  /** As written: the line is the number of terminators, CR LF counted
      once; the column is `s.length - index + length` of the last one, in
      code units (`Utf16Len(s[..k])` is the code-unit index of `s[k]`), and
      0 when there is none. */
  lemma EndPositionAsWrittenCounts(s: string)
    ensures EndPositionAsWritten(s).line == BreaksFrom(s, 0)
    ensures EndPositionAsWritten(s).character
            == match LastBreakFrom(s, 0)
               case None => 0
               case Some(k) => Utf16Len(s) - Utf16Len(s[..k]) + TerminatorAt(s, k)
  {
    ScanAsWrittenCounts(s, 0, Position(0, 0));
    var last := LastBreakFrom(s, 0);
    if last.Some? {
      UnitsFromIsLen(s, last.value);
      Utf16LenSplit(s, last.value);
    }
  }

  /** There is no terminator ahead exactly when none is counted. */
  lemma {:induction false} NoBreakNoCount(s: string, i: nat)
    ensures LastBreakFrom(s, i).None? <==> BreaksFrom(s, i) == 0
    decreases |s| - i
  {
    if i < |s| {
      NoBreakNoCount(s, i + 1);
    }
  }

  /** A text without CR and LF ends, as written, at line 0, column 0. */
  lemma NoTerminatorAsWritten(s: string)
    requires forall k :: 0 <= k < |s| ==> s[k] != '\r' && s[k] != '\n'
    ensures EndPositionAsWritten(s) == Position(0, 0)
  {
    EndPositionAsWrittenCounts(s);
    NoBreakNoCount(s, 0);
    var last := LastBreakFrom(s, 0);
    if last.Some? {
      assert false;
    }
  }

  // ---------------------------------------------------------------------
  // The corrected function
  // ---------------------------------------------------------------------

  /** The loop with the intended column `s.length - (index + length)`: the
      code units of the text after the terminator. */
  function Scan(s: string, i: nat, pos: Position): Position
    decreases |s| - i
  {
    if i >= |s| then pos
    else
      var n := TerminatorAt(s, i);
      if n == 0 then Scan(s, i + 1, pos)
      else Scan(s, i + n, Position(pos.line + 1, UnitsFrom(s, i + n)))
  }

  /** The end of `s`: on the line after the last terminator, at the length
      of that line; on line 0 at `s.length` when there is no terminator. */
  function EndPosition(s: string): Position {
    Scan(s, 0, Position(0, Utf16Len(s)))
  }

  lemma {:induction false} ScanCounts(s: string, i: nat, pos: Position)
    requires AtBoundary(s, i)
    ensures Scan(s, i, pos).line == pos.line + BreaksFrom(s, i)
    ensures Scan(s, i, pos).character
            == match LastBreakFrom(s, i)
               case None => pos.character
               case Some(k) => UnitsFrom(s, k + TerminatorAt(s, k))
    decreases |s| - i
  {
    if i < |s| {
      var n := TerminatorAt(s, i);
      if n == 0 {
        ScanCounts(s, i + 1, pos);
      } else {
        ScanCounts(s, i + n, Position(pos.line + 1, UnitsFrom(s, i + n)));
        if n == 2 {
          CrLfSkip(s, i);
        }
      }
    }
  }

  /** Where the last line begins: just after the last CR or LF, or at 0. */
  function LastLineStart(s: string): (j: nat)
    ensures j <= |s|
    ensures forall k :: j <= k < |s| ==> s[k] != '\r' && s[k] != '\n'
    ensures j > 0 ==> s[j - 1] == '\r' || s[j - 1] == '\n'
    decreases |s|
  {
    if s == [] then 0
    else if s[|s| - 1] == '\r' || s[|s| - 1] == '\n' then |s|
    else
      var j := LastLineStart(s[..|s| - 1]);
      assert forall k :: j <= k < |s| - 1 ==> s[k] == s[..|s| - 1][k];
      j
  }

  /** Only one index follows the last CR or LF. */
  lemma LastLineStartUnique(s: string, j: nat)
    requires j <= |s|
    requires forall k :: j <= k < |s| ==> s[k] != '\r' && s[k] != '\n'
    requires j > 0 ==> s[j - 1] == '\r' || s[j - 1] == '\n'
    ensures j == LastLineStart(s)
  {
    var m := LastLineStart(s);
    assert m <= j;
    assert j <= m;
  }

  /** The corrected end position is the end of the text: its line is the
      number of terminators, and its column is the number of code units of
      the last line, the text after the last CR or LF. */
  lemma EndPositionIsEnd(s: string)
    ensures EndPosition(s).line == BreaksFrom(s, 0)
    ensures EndPosition(s).character == Utf16Len(s[LastLineStart(s)..])
  {
    ScanCounts(s, 0, Position(0, Utf16Len(s)));
    LastLineFollowsLastBreak(s);
    if LastBreakFrom(s, 0).Some? {
      UnitsFromIsLen(s, LastLineStart(s));
    } else {
      assert s[0..] == s;
    }
  }

  /** The last line starts right after the last terminator, or at 0. */
  lemma LastLineFollowsLastBreak(s: string)
    ensures LastLineStart(s)
            == match LastBreakFrom(s, 0)
               case None => 0
               case Some(k) => k + TerminatorAt(s, k)
  {
    var last := LastBreakFrom(s, 0);
    if last.Some? {
      var k := last.value;
      var n := TerminatorAt(s, k);
      forall j | k + n <= j < |s|
        ensures s[j] != '\r' && s[j] != '\n'
      {
        assert !IsBreakStart(s, j);
        if j - 1 > k {
          assert !IsBreakStart(s, j - 1);
        }
      }
      LastLineStartUnique(s, k + n);
    } else {
      forall j | 0 <= j < |s|
        ensures s[j] != '\r' && s[j] != '\n'
      {
        assert !IsBreakStart(s, j);
        if j > 0 {
          assert !IsBreakStart(s, j - 1);
        }
      }
      LastLineStartUnique(s, 0);
    }
  }

  /** The two agree on the line; the columns agree only on the empty text:
      with no terminator the source reports 0 instead of the length, and
      after one it adds the terminator's length where it should subtract
      it. */
  lemma AsWrittenDiffers(s: string)
    ensures EndPositionAsWritten(s).line == EndPosition(s).line
    ensures EndPositionAsWritten(s) == EndPosition(s) <==> s == []
  {
    ScanAsWrittenCounts(s, 0, Position(0, 0));
    ScanCounts(s, 0, Position(0, Utf16Len(s)));
    var last := LastBreakFrom(s, 0);
    if last.Some? {
      var k := last.value;
      assert UnitsFrom(s, k) > UnitsFrom(s, k + 1) >= UnitsFrom(s, k + TerminatorAt(s, k));
    }
  }

  /** On a single line, the source's end position is the start. */
  lemma SingleLineExample()
    ensures EndPositionAsWritten("ab") == Position(0, 0)
    ensures EndPosition("ab") == Position(0, 2)
  {
  }

  /** After a terminator, the source's column overshoots the last line. */
  lemma SecondLineExample()
    ensures EndPositionAsWritten("a\nbc") == Position(1, 4)
    ensures EndPosition("a\nbc") == Position(1, 2)
  {
  }

  /** A character beyond U+FFFF takes two columns, as in the editor. */
  lemma SurrogatePairExample()
    ensures EndPositionAsWritten("a\n\U{1F600}") == Position(1, 4)
    ensures EndPosition("a\n\U{1F600}") == Position(1, 2)
    ensures EndPosition("\U{1F600}") == Position(0, 2)
  {
  }
}

=== FILE: posix_path.dfy ===
/**
 * The parts of Node's `path` module (POSIX flavour) that the glob
 * converter uses, on paths that need no normalisation: no `.` or `..`
 * segments, no doubled or trailing separators.
 */
module PosixPath {

  /** `path.sep`. */
  const Sep: char := '/'

  /** `path.isAbsolute(p)`. */
  predicate IsAbsolute(p: string) {
    |p| > 0 && p[0] == Sep
  }

  /** `path.basename(p)`: the text after the last separator. */
  function Basename(p: string): (r: string)
    ensures Sep !in r
    ensures |r| <= |p|
  {
    if p == [] || p[|p| - 1] == Sep then []
    else Basename(p[..|p| - 1]) + [p[|p| - 1]]
  }

  /** The basename is the end of the path, cut at its last separator. */
  lemma {:induction false} BasenameIsLastSegment(p: string)
    ensures var r := Basename(p);
            r == p[|p| - |r|..] && (|r| < |p| ==> p[|p| - |r| - 1] == Sep)
  {
    if p != [] && p[|p| - 1] != Sep {
      var init := p[..|p| - 1];
      BasenameIsLastSegment(init);
      assert p == init + [p[|p| - 1]];
    }
  }

  /** `p.split(path.sep)[0]`: the text before the first separator. */
  function FirstSegment(p: string): (r: string)
    ensures Sep !in r
    ensures |r| <= |p| && r == p[..|r|]
    ensures |r| < |p| ==> p[|r|] == Sep
  {
    if p == [] || p[0] == Sep then []
    else [p[0]] + FirstSegment(p[1..])
  }

  /** `path.relative(FirstSegment(p), p)`: `p` without its first segment
      and the separator after it; empty when `p` is a single segment. */
  function DropFirstSegment(p: string): string {
    var n := |FirstSegment(p)|;
    if n < |p| then p[n + 1..] else []
  }

  /** `path.join(a, b)`: the two joined by one separator; an empty `b`
      adds nothing. */
  function Join(a: string, b: string): (r: string)
    ensures b == [] ==> r == a
    ensures b != [] ==> |r| == |a| + 1 + |b| && r[..|a|] == a && r[|a|] == Sep && r[|a| + 1..] == b
  {
    if b == [] then a else a + [Sep] + b
  }

  /** Joining a separator-free first segment to a non-empty rest is undone
      by cutting at the first separator. */
  lemma JoinThenCut(a: string, b: string)
    requires Sep !in a && b != []
    ensures FirstSegment(Join(a, b)) == a
    ensures DropFirstSegment(Join(a, b)) == b
  {
    var p := Join(a, b);
    var n := |FirstSegment(p)|;
    assert p[..n] == FirstSegment(p);
    assert n <= |a|;
    assert n == |a|;
  }

  /** Cutting off the first segment loses nothing: the segment, a
      separator and the rest rebuild the path. */
  lemma FirstSegmentRoundTrip(p: string)
    ensures |FirstSegment(p)| < |p| ==> p == FirstSegment(p) + [Sep] + DropFirstSegment(p)
    ensures |FirstSegment(p)| == |p| ==> p == FirstSegment(p) && DropFirstSegment(p) == []
  {
    var n := |FirstSegment(p)|;
    if n < |p| {
      assert p == p[..n] + [p[n]] + p[n + 1..];
    }
  }

  /** A relative, non-empty path has a non-empty first segment. */
  lemma FirstSegmentOfRelative(p: string)
    requires p != [] && !IsAbsolute(p)
    ensures FirstSegment(p) != []
  {
  }
}

=== FILE: search_replace_view.dfy ===
/**
 * The `status` record of `SearchReplaceViewProvider` in
 * `src/SearchReplaceView/SearchReplaceViewProvider.ts` and the runner
 * event listeners that update it, as a reducer `Apply(status, event)`.
 *
 * `Summary` describes the same status without replaying it: the counters
 * tally the result events since the last `stop`, `running` follows the
 * last `start`, `stop` or `done`, and `completed` and `total` come from
 * the last `progress`.
 */
module SearchReplaceView {
  import opened Optional
  import opened AstxRunner

  /** `SearchReplaceViewStatus`. */
  datatype Status = Status(
    running: bool,
    completed: nat,
    total: nat,
    numMatches: nat,
    numFilesThatWillChange: nat,
    numFilesWithMatches: nat,
    numFilesWithErrors: nat)

  /** The status the view starts from. */
  const Initial := Status(false, 0, 0, 0, 0, 0, 0)

  /** `e.transformed && e.transformed !== e.source`: truthiness, so an
      empty transformed text does not count. */
  predicate WillChange(e: ResultEvent) {
    e.transformed.Some? && e.transformed.value != [] && e.transformed.value != e.source
  }

  /** The four counters a `result` event moves, as a unit. */
  datatype Counters = Counters(matches: nat, willChange: nat, withMatches: nat, withErrors: nat)

  function CountersOf(s: Status): Counters {
    Counters(s.numMatches, s.numFilesThatWillChange, s.numFilesWithMatches, s.numFilesWithErrors)
  }

  /** What one `result` event adds to the counters. */
  function Contribution(e: ResultEvent): (c: Counters)
    ensures c.matches == e.matches && c.withMatches <= c.matches
    ensures c.withMatches <= 1 && c.withErrors <= 1 && c.willChange <= 1
    ensures c.withMatches == 1 <==> e.matches > 0
    ensures c.withErrors == 1 <==> e.error
    ensures c.willChange == 1 <==> WillChange(e)
  {
    Counters(e.matches, if WillChange(e) then 1 else 0, if e.matches > 0 then 1 else 0, if e.error then 1 else 0)
  }

  /** A counter never shows more files with matches than matches. */
  predicate Consistent(s: Status) {
    s.numFilesWithMatches <= s.numMatches
  }

  /** The listener for one runner event. */
  function Apply(s: Status, e: Event): (s': Status)
    ensures Consistent(s) ==> Consistent(s')
    ensures e.Start? || e.Stop? || e.Done? ==> s'.completed == s.completed && s'.total == s.total
    ensures !e.Stop? && !e.Result? ==> CountersOf(s') == CountersOf(s)
    ensures !e.Start? && !e.Stop? && !e.Done? ==> s'.running == s.running
  {
    match e
    case Progress(c, t) => s.(completed := c, total := t)
    case Result(r) =>
      var d := Contribution(r);
      s.(numMatches := s.numMatches + d.matches,
         numFilesThatWillChange := s.numFilesThatWillChange + d.willChange,
         numFilesWithMatches := s.numFilesWithMatches + d.withMatches,
         numFilesWithErrors := s.numFilesWithErrors + d.withErrors)
    case Start => s.(running := true)
    case Stop =>
      s.(running := false, numMatches := 0, numFilesThatWillChange := 0,
         numFilesWithMatches := 0, numFilesWithErrors := 0)
    case Done => s.(running := false)
  }

  /** The status after the events, in order. */
  function ApplyAll(s: Status, events: seq<Event>): (s': Status)
    ensures Consistent(s) ==> Consistent(s')
    decreases |events|
  {
    if events == [] then s
    else Apply(ApplyAll(s, events[..|events| - 1]), events[|events| - 1])
  }

  // ---------------------------------------------------------------------
  // The status as a summary of the events
  // ---------------------------------------------------------------------

  /** The events after the last `stop`, or all of them. */
  function SinceStop(events: seq<Event>): (r: seq<Event>)
    ensures |r| <= |events|
    ensures forall k :: 0 <= k < |r| ==> !r[k].Stop?
    decreases |events|
  {
    if events == [] then []
    else if events[|events| - 1].Stop? then []
    else SinceStop(events[..|events| - 1]) + [events[|events| - 1]]
  }

  /** The sum of the contributions of the `result` events. */
  function Tally(events: seq<Event>): Counters
    decreases |events|
  {
    if events == [] then Counters(0, 0, 0, 0)
    else
      var t := Tally(events[1..]);
      if events[0].Result? then
        var d := Contribution(events[0].result);
        Counters(d.matches + t.matches, d.willChange + t.willChange, d.withMatches + t.withMatches, d.withErrors + t.withErrors)
      else t
  }

  lemma {:induction false} TallySnoc(events: seq<Event>, e: Event)
    ensures var t, t' := Tally(events), Tally(events + [e]);
            if e.Result? then
              var d := Contribution(e.result);
              t' == Counters(t.matches + d.matches, t.willChange + d.willChange, t.withMatches + d.withMatches, t.withErrors + d.withErrors)
            else t' == t
    decreases |events|
  {
    if events == [] {
      assert [e][1..] == [];
    } else {
      TallySnoc(events[1..], e);
      assert (events + [e])[1..] == events[1..] + [e];
    }
  }

  /** Whether the last of `start`, `stop` and `done` is a `start`. */
  function LastRunning(events: seq<Event>): bool
    decreases |events|
  {
    if events == [] then false
    else
      match events[|events| - 1]
      case Start => true
      case Stop => false
      case Done => false
      case _ => LastRunning(events[..|events| - 1])
  }

  /** The last `progress` event, if any. */
  function LastProgress(events: seq<Event>): Option<Event>
    decreases |events|
  {
    if events == [] then None
    else if events[|events| - 1].Progress? then Some(events[|events| - 1])
    else LastProgress(events[..|events| - 1])
  }

  /** The status the events describe, from the initial status. */
  function Summary(events: seq<Event>): Status {
    var c := Tally(SinceStop(events));
    var p := LastProgress(events);
    Status(LastRunning(events),
           if p.Some? && p.value.Progress? then p.value.completed else 0,
           if p.Some? && p.value.Progress? then p.value.total else 0,
           c.matches, c.willChange, c.withMatches, c.withErrors)
  }

  /** Replaying the events from the initial status gives their summary:
      the counters count only the results since the last `stop`, and
      `stop` leaves the progress as it was. */
  lemma {:induction false} ApplyAllIsSummary(events: seq<Event>)
    ensures ApplyAll(Initial, events) == Summary(events)
    decreases |events|
  {
    if events != [] {
      var init, e := events[..|events| - 1], events[|events| - 1];
      ApplyAllIsSummary(init);
      if !e.Stop? {
        TallySnoc(SinceStop(init), e);
      }
    }
  }

  // ---------------------------------------------------------------------
  // The view and the runner
  // ---------------------------------------------------------------------

  /** The runner's filter hides nothing from the view: a dropped result
      would not have moved any counter. */
  lemma DroppedResultInvisible(s: Status, r: WorkerResult)
    requires r.Dropped()
    ensures Apply(s, Result(ToEvent(r))) == s
  {
  }

  /** The view counts a file as changing when the runner records it,
      except when the new text is empty: a result that empties its file is
      recorded for `replace` but not counted. */
  lemma WillChangeVersusRecorded(r: WorkerResult)
    ensures WillChange(ToEvent(r)) <==> r.Changes() && r.transformed.value != []
    ensures r.Changes() && r.transformed.value == [] ==>
              && r.file in OnResult(map[], r).results
              && Apply(Initial, Result(ToEvent(r))).numFilesThatWillChange == 0
  {
  }

  /** A run that ends early shows an idle view with zero counters. */
  lemma EarlyRunShowsIdle(s: Status, results: Results, params: Params, folders: seq<string>)
    requires Run(results, params, folders).query.None?
    ensures var s' := ApplyAll(s, Run(results, params, folders).events);
            !s'.running && CountersOf(s') == Counters(0, 0, 0, 0)
            && s'.completed == s.completed && s'.total == s.total
  {
    RunEndsEarlyIff(results, params, folders);
    var events := Run(results, params, folders).events;
    assert events[..2] == [Stop, Start] && events[..1] == [Stop];
    assert events == [Stop, Start, Done];
    assert events[..2][..1] == [Stop] && [Stop][..0] == [];
    var stopped := Apply(s, Stop);
    assert ApplyAll(s, [Stop]) == stopped;
    assert ApplyAll(s, events[..2]) == Apply(stopped, Start);
  }

  /** Events with no `stop` among them are all kept by `SinceStop`. */
  lemma {:induction false} SinceStopAppend(xs: seq<Event>, ys: seq<Event>)
    requires forall k :: 0 <= k < |ys| ==> !ys[k].Stop?
    ensures SinceStop(xs + ys) == SinceStop(xs) + ys
    decreases |ys|
  {
    if ys == [] {
      assert xs + ys == xs;
    } else {
      var init, last := ys[..|ys| - 1], ys[|ys| - 1];
      assert (xs + ys)[..|xs + ys| - 1] == xs + init;
      assert (xs + ys)[|xs + ys| - 1] == last;
      SinceStopAppend(xs, init);
      assert init + [last] == ys;
    }
  }

  /** A `stop` followed by events without one: they are the events since
      the last `stop`. */
  lemma SinceFirstStop(tail: seq<Event>)
    requires forall k :: 0 <= k < |tail| ==> !tail[k].Stop?
    ensures SinceStop([Stop] + tail) == tail
  {
    SinceStopAppend([Stop], tail);
    assert SinceStop([Stop]) == [];
    assert [] + tail == tail;
  }

  /** `start` and `done` add nothing to the tally. */
  lemma TallyFramed(rep: seq<Event>)
    ensures Tally([Start] + rep + [Done]) == Tally(rep)
  {
    assert ([Start] + rep + [Done])[1..] == rep + [Done];
    TallySnoc(rep, Done);
  }

  /** The summary of a framed run: idle, counting the results inside. */
  lemma FramedSummary(rep: seq<Event>)
    requires forall k :: 0 <= k < |rep| ==> !rep[k].Stop?
    ensures var s' := Summary([Stop] + ([Start] + rep + [Done]));
            !s'.running && CountersOf(s') == Tally(rep)
  {
    var tail := [Start] + rep + [Done];
    FramedHasNoStop(rep);
    SinceFirstStop(tail);
    TallyFramed(rep);
    var events := [Stop] + tail;
    assert events[|events| - 1] == Done;
  }

  /** Framing events without a `stop` by `start` and `done` adds none. */
  lemma FramedHasNoStop(rep: seq<Event>)
    requires forall k :: 0 <= k < |rep| ==> !rep[k].Stop?
    ensures forall k :: 0 <= k < |[Start] + rep + [Done]| ==> !([Start] + rep + [Done])[k].Stop?
  {
    var tail := [Start] + rep + [Done];
    forall k | 0 <= k < |tail|
      ensures !tail[k].Stop?
    {
      if 1 <= k < |tail| - 1 {
        assert tail[k] == rep[k - 1];
      }
    }
  }

  /** Between a `start` and a final `done`, with no `stop` in between,
      the view ends idle and counts exactly the results in between. */
  lemma FramedEventsShowIdle(rep: seq<Event>)
    requires forall k :: 0 <= k < |rep| ==> !rep[k].Stop?
    ensures var s' := ApplyAll(Initial, [Stop, Start] + rep + [Done]);
            !s'.running && CountersOf(s') == Tally(rep)
  {
    assert [Stop, Start] + rep + [Done] == [Stop] + ([Start] + rep + [Done]);
    ApplyAllIsSummary([Stop] + ([Start] + rep + [Done]));
    FramedSummary(rep);
  }

  /** A run that scans, seen through to its final `done`, leaves the view
      idle, with the counters tallying exactly the results the runner
      reported for this run. */
  lemma CompletedRunShowsIdle(results: Results, params: Params, folders: seq<string>, msgs: seq<Message>)
    requires Run(results, params, folders).query.Some?
    ensures var s' := ApplyAll(Initial, RunToEnd(results, params, folders, msgs).events);
            !s'.running && CountersOf(s') == Tally(Reported(msgs))
  {
    RunToEndEvents(results, params, folders, msgs);
    FramedEventsShowIdle(Reported(msgs));
  }
}

=== FILE: split_glob.dfy ===
/**
 * The comma splitter of `src/glob/splitGlobPattern.ts`.
 *
 * `SplitGlobPattern` is the source's index walk: three group counters, a
 * backslash that skips the next character, and a split at every comma met
 * while all three counters are zero. Next to it stands a
 * character-by-character description of the same scan (`CursorAt`,
 * `IsSeparator`, `Separators`). It shares only the counter update `Step`
 * with the walk, and `StepOpens`, `StepUndo` and `StepKeepsOpen` pin that
 * update down. The lemmas show that the tokens are exactly the trimmed,
 * non-empty pieces between consecutive separators, and that a comma
 * inside a group never separates (`GroupCommasNotSeparators`).
 */
module SplitGlob {
  import opened Text

  /** The three counters `parens`, `brackets`, `braces`; `nat` because the
      source clamps every decrement at zero. */
  datatype Depth = Depth(parens: nat, brackets: nat, braces: nat) {
    predicate IsTop() {
      parens == 0 && brackets == 0 && braces == 0
    }
  }

  const Top := Depth(0, 0, 0)

  /** `Math.max(0, n - 1)`. */
  function Decrement(n: nat): (r: nat)
    ensures n > 0 ==> r + 1 == n
    ensures n == 0 ==> r == 0
  {
    if n == 0 then 0 else n - 1
  }

  /** The effect of one unescaped character on the counters: an opener
      raises its own counter, a closer lowers its own counter unless it is
      already zero, and every other character (the comma included) leaves
      the counters alone. */
  function Step(d: Depth, c: char): (d': Depth)
  {
    match c
    case '(' => d.(parens := d.parens + 1)
    case '[' => d.(brackets := d.brackets + 1)
    case '{' => d.(braces := d.braces + 1)
    case ')' => d.(parens := Decrement(d.parens))
    case ']' => d.(brackets := Decrement(d.brackets))
    case '}' => d.(braces := Decrement(d.braces))
    case _ => d
  }

  /** A closer undoes its own opener, a closer at zero is ignored, and
      every other character (the comma included) leaves the counters
      alone. */
  lemma StepUndo(d: Depth, c: char)
    ensures Step(Step(d, '('), ')') == d && Step(Step(d, '['), ']') == d && Step(Step(d, '{'), '}') == d
    ensures d.parens == 0 ==> Step(d, ')') == d
    ensures d.brackets == 0 ==> Step(d, ']') == d
    ensures d.braces == 0 ==> Step(d, '}') == d
    ensures c !in "()[]{}" ==> Step(d, c) == d
  {
  }

  /** An opener raises its own counter by one and leaves the other two. */
  lemma StepOpens(d: Depth)
    ensures Step(d, '(') == Depth(d.parens + 1, d.brackets, d.braces)
    ensures Step(d, '[') == Depth(d.parens, d.brackets + 1, d.braces)
    ensures Step(d, '{') == Depth(d.parens, d.brackets, d.braces + 1)
  {
  }

  /** The closer that matches an opener. */
  function CloserOf(o: char): char
    requires o in "([{"
  {
    if o == '(' then ')' else if o == '[' then ']' else '}'
  }

  /** The counter an opener raises. */
  function Open(d: Depth, o: char): nat
    requires o in "([{"
  {
    if o == '(' then d.parens else if o == '[' then d.brackets else d.braces
  }

  /** Only the matching closer lowers a group's counter. */
  lemma StepKeepsOpen(d: Depth, o: char, c: char)
    requires o in "([{" && c != CloserOf(o)
    ensures Open(Step(d, c), o) >= Open(d, o)
    ensures c == o ==> Open(Step(d, c), o) == Open(d, o) + 1
  {
  }

  /** Every token is non-empty and already trimmed. */
  ghost predicate AllTokens(ts: seq<string>)
    decreases |ts|
  {
    ts == [] || (ts[0] != [] && IsTrimmed(ts[0]) && AllTokens(ts[1..]))
  }

  /** `AllTokens`, token by token. */
  lemma {:induction false} AllTokensAt(ts: seq<string>, k: nat)
    requires AllTokens(ts) && k < |ts|
    ensures ts[k] != [] && IsTrimmed(ts[k])
    decreases k
  {
    if k > 0 {
      AllTokensAt(ts[1..], k - 1);
    }
  }

  /** Trim every piece and keep the non-empty ones (`if (sub) yield sub`):
      what the generator yields for the pieces it cuts, in the order it
      cuts them. */
  function TrimAndDrop(pieces: seq<string>): (tokens: seq<string>)
    ensures AllTokens(tokens)
    ensures |tokens| <= |pieces|
  {
    if pieces == [] then []
    else
      var t, rest := Trim(pieces[0]), TrimAndDrop(pieces[1..]);
      if t == [] then rest else [t] + rest
  }

  /** The `for` loop of `splitGlobPattern` from index `i`, returning the
      untrimmed pieces it cuts: `start` is the beginning of the current
      piece and `d` the counters. A backslash advances the index by two, so
      `i` may end one past the end of the pattern. */
  function Scan(p: string, i: nat, start: nat, d: Depth): (pieces: seq<string>)
    requires start <= i && start <= |p|
    ensures |pieces| >= 1
    decreases |p| - i
  {
    if i >= |p| then [p[start..]]
    else if p[i] == '\\' then Scan(p, i + 2, start, d)
    else if p[i] == ',' && d.IsTop() then [p[start..i]] + Scan(p, i + 1, i + 1, d)
    else Scan(p, i + 1, start, Step(d, p[i]))
  }

  /** `splitGlobPattern(pattern)`, its yielded tokens collected in order:
      each piece is trimmed and yielded when non-empty. */
  function SplitGlobPattern(p: string): (tokens: seq<string>)
    ensures AllTokens(tokens)
  {
    TrimAndDrop(Scan(p, 0, 0, Top))
  }

  // ---------------------------------------------------------------------
  // A per-character description: the scanner's state before each character.
  // ---------------------------------------------------------------------

  /** The scanner before a character: whether that character is skipped
      because a backslash precedes it, and the counters. */
  datatype Cursor = Cursor(escaped: bool, depth: Depth)

  const Fresh := Cursor(false, Top)

  /** The cursor after reading character `c`. */
  function Advance(cur: Cursor, c: char): Cursor {
    if cur.escaped then Cursor(false, cur.depth)
    else if c == '\\' then Cursor(true, cur.depth)
    else Cursor(false, Step(cur.depth, c))
  }

  /** The cursor in front of `p[n]`, reading `p[..n]` one character at a time. */
  function CursorAt(p: string, n: nat): Cursor
    requires n <= |p|
  {
    if n == 0 then Fresh else Advance(CursorAt(p, n - 1), p[n - 1])
  }

  /** `p[k]` is a comma that is neither escaped nor inside a group. */
  predicate IsSeparator(p: string, k: nat)
    requires k < |p|
  {
    var cur := CursorAt(p, k);
    p[k] == ',' && !cur.escaped && cur.depth.IsTop()
  }

  /** Cut positions in `[lo, hi)`, strictly increasing. */
  ghost predicate Cuts(lo: nat, hi: nat, cuts: seq<nat>)
    decreases |cuts|
  {
    cuts == [] || (lo <= cuts[0] < hi && Cuts(cuts[0] + 1, hi, cuts[1..]))
  }

  /** The separators at positions `i` and later, in increasing order. */
  function SeparatorsFrom(p: string, i: nat): (cuts: seq<nat>)
    ensures Cuts(i, |p|, cuts)
    decreases |p| - i
  {
    if i >= |p| then []
    else if IsSeparator(p, i) then [i] + SeparatorsFrom(p, i + 1)
    else SeparatorsFrom(p, i + 1)
  }

  /** Every listed position is a separator at or after `i`. */
  lemma {:induction false} SeparatorsSound(p: string, i: nat)
    ensures forall a :: 0 <= a < |SeparatorsFrom(p, i)| ==>
              i <= SeparatorsFrom(p, i)[a] < |p| && IsSeparator(p, SeparatorsFrom(p, i)[a])
    decreases |p| - i
  {
    if i < |p| {
      SeparatorsSound(p, i + 1);
      var rest := SeparatorsFrom(p, i + 1);
      if IsSeparator(p, i) {
        var cuts := [i] + rest;
        assert SeparatorsFrom(p, i) == cuts;
        forall a | 0 <= a < |cuts|
          ensures i <= cuts[a] < |p| && IsSeparator(p, cuts[a])
        {
          if a > 0 {
            assert cuts[a] == rest[a - 1];
            assert i + 1 <= rest[a - 1] < |p| && IsSeparator(p, rest[a - 1]);
          }
        }
      } else {
        assert SeparatorsFrom(p, i) == rest;
      }
    }
  }

  /** Every separator at or after `i` is listed. */
  lemma {:induction false} SeparatorsComplete(p: string, i: nat)
    ensures forall k :: i <= k < |p| && IsSeparator(p, k) ==> k in SeparatorsFrom(p, i)
    decreases |p| - i
  {
    if i < |p| {
      SeparatorsComplete(p, i + 1);
    }
  }

  /** The list holds every separator from `i` on, and nothing else. */
  lemma SeparatorsFromExact(p: string, i: nat)
    ensures var cuts := SeparatorsFrom(p, i);
            && (forall a :: 0 <= a < |cuts| ==> i <= cuts[a] < |p| && IsSeparator(p, cuts[a]))
            && (forall k :: i <= k < |p| ==> (IsSeparator(p, k) <==> k in cuts))
  {
    SeparatorsSound(p, i);
    SeparatorsComplete(p, i);
  }

  function Separators(p: string): seq<nat> {
    SeparatorsFrom(p, 0)
  }

  /** The pieces of `p[start..]` between the given cut positions. */
  function Segments(p: string, start: nat, cuts: seq<nat>): (pieces: seq<string>)
    requires start <= |p| && Cuts(start, |p|, cuts)
    ensures |pieces| == |cuts| + 1
    decreases |cuts|
  {
    if cuts == [] then [p[start..]]
    else [p[start..cuts[0]]] + Segments(p, cuts[0] + 1, cuts[1..])
  }

  /** The pieces of the whole pattern between its separators. */
  function Pieces(p: string): seq<string> {
    Segments(p, 0, Separators(p))
  }

  // ---------------------------------------------------------------------
  // The walk agrees with the description.
  // ---------------------------------------------------------------------

  /** At an unescaped backslash: neither it nor the character it hides is
      a separator, and the cursor after the pair is the one before it. */
  lemma EscapeStep(p: string, i: nat, d: Depth)
    requires i < |p| && p[i] == '\\' && CursorAt(p, i) == Cursor(false, d)
    ensures SeparatorsFrom(p, i) == SeparatorsFrom(p, i + 2)
    ensures i + 2 <= |p| ==> CursorAt(p, i + 2) == Cursor(false, d)
  {
    assert !IsSeparator(p, i);
    if i + 1 < |p| {
      assert CursorAt(p, i + 1) == Cursor(true, d);
      assert !IsSeparator(p, i + 1);
    }
  }

  /** At an unescaped comma outside every group: a separator. */
  lemma CommaStep(p: string, i: nat, d: Depth)
    requires i < |p| && p[i] == ',' && d.IsTop() && CursorAt(p, i) == Cursor(false, d)
    ensures SeparatorsFrom(p, i) == [i] + SeparatorsFrom(p, i + 1)
    ensures CursorAt(p, i + 1) == Cursor(false, d)
  {
    assert IsSeparator(p, i);
  }

  /** At any other unescaped character: no separator, and the counters
      step. */
  lemma OtherStep(p: string, i: nat, d: Depth)
    requires i < |p| && p[i] != '\\' && !(p[i] == ',' && d.IsTop()) && CursorAt(p, i) == Cursor(false, d)
    ensures SeparatorsFrom(p, i) == SeparatorsFrom(p, i + 1)
    ensures CursorAt(p, i + 1) == Cursor(false, Step(d, p[i]))
  {
    assert !IsSeparator(p, i);
  }

  /** The walk from any index whose cursor is unescaped with counters `d`
      cuts exactly at the remaining separators. */
  lemma {:induction false} ScanCutsAtSeparators(p: string, i: nat, start: nat, d: Depth)
    requires start <= i && start <= |p|
    requires i <= |p| ==> CursorAt(p, i) == Cursor(false, d)
    ensures Scan(p, i, start, d) == Segments(p, start, SeparatorsFrom(p, i))
    decreases |p| - i
  {
    if i >= |p| {
    } else if p[i] == '\\' {
      EscapeStep(p, i, d);
      ScanCutsAtSeparators(p, i + 2, start, d);
    } else if p[i] == ',' && d.IsTop() {
      CommaStep(p, i, d);
      ScanCutsAtSeparators(p, i + 1, i + 1, d);
      var rest := SeparatorsFrom(p, i + 1);
      assert ([i] + rest)[0] == i && ([i] + rest)[1..] == rest;
    } else {
      OtherStep(p, i, d);
      ScanCutsAtSeparators(p, i + 1, start, Step(d, p[i]));
    }
  }

  /** The tokens are, in order, the trimmed non-empty pieces of the pattern
      between consecutive separators (and the pattern's two ends). */
  lemma SplitIsTrimmedPieces(p: string)
    ensures SplitGlobPattern(p) == TrimAndDrop(Pieces(p))
  {
    ScanCutsAtSeparators(p, 0, 0, Top);
  }

  /** Joining the pieces back with commas gives the text they were cut
      from: only the separator commas are consumed by cutting. */
  lemma {:induction false} SegmentsRejoin(p: string, start: nat, cuts: seq<nat>)
    requires start <= |p| && Cuts(start, |p|, cuts)
    requires forall a :: 0 <= a < |cuts| ==> cuts[a] < |p| && p[cuts[a]] == ','
    ensures JoinWith(Segments(p, start, cuts), ',') == p[start..]
    decreases |cuts|
  {
    if cuts != [] {
      var c := cuts[0];
      SegmentsRejoin(p, c + 1, cuts[1..]);
      var tail := Segments(p, c + 1, cuts[1..]);
      assert Segments(p, start, cuts) == [p[start..c]] + tail;
      JoinCons(p[start..c], tail, ',');
      CutAt(p, start, c);
    }
  }

  /** Text splits around one of its characters. */
  lemma CutAt(p: string, start: nat, c: nat)
    requires start <= c < |p|
    ensures p[start..] == p[start..c] + [p[c]] + p[c + 1..]
  {
  }

  /** No text is lost: the pieces, rejoined at the separators, rebuild the
      pattern. (`SplitIsTrimmedPieces` relates the tokens to the pieces.) */
  lemma PiecesRebuildPattern(p: string)
    ensures JoinWith(Pieces(p), ',') == p
  {
    SeparatorsFromExact(p, 0);
    SegmentsRejoin(p, 0, Separators(p));
  }

  /** A pattern with no separator yields at most one token: the whole
      pattern trimmed, or nothing when that is empty. */
  lemma NoSeparatorOneToken(p: string)
    requires forall k :: 0 <= k < |p| ==> !IsSeparator(p, k)
    ensures SplitGlobPattern(p) == (if Trim(p) == [] then [] else [Trim(p)])
  {
    SplitIsTrimmedPieces(p);
    SeparatorsFromExact(p, 0);
    assert Separators(p) == [];
    assert Pieces(p) == [p];
    assert [p][1..] == [];
  }

  /** No character of `t` means anything to the scanner. */
  predicate IsPlain(t: string) {
    forall c :: c in t ==> c !in "\\,()[]{}"
  }

  /** Plain text leaves the scanner as it found it. */
  lemma {:induction false} PlainKeepsFresh(t: string, n: nat)
    requires IsPlain(t) && n <= |t|
    ensures CursorAt(t, n) == Fresh
  {
    if n > 0 {
      PlainKeepsFresh(t, n - 1);
      assert t[n - 1] in t;
    }
  }

  /** A plain pattern is one token, its trimmed self, and may be followed
      by a separator. */
  lemma PlainOneToken(t: string)
    requires IsPlain(t)
    ensures CursorAt(t, |t|) == Fresh
    ensures SplitGlobPattern(t) == (if Trim(t) == [] then [] else [Trim(t)])
  {
    PlainKeepsFresh(t, |t|);
    forall k | 0 <= k < |t|
      ensures !IsSeparator(t, k)
    {
      assert t[k] in t;
    }
    NoSeparatorOneToken(t);
  }

  /** An empty or whitespace-only pattern yields no token. */
  lemma BlankPatternNoTokens(p: string)
    requires AllSpace(p)
    ensures SplitGlobPattern(p) == []
  {
    forall k | 0 <= k < |p|
      ensures !IsSeparator(p, k)
    {
      assert IsSpace(p[k]);
    }
    NoSeparatorOneToken(p);
    TrimEmptyIffAllSpace(p);
  }

  // ---------------------------------------------------------------------
  // Escapes, and splitting a concatenation.
  // ---------------------------------------------------------------------

  /** Reading more text does not change the cursor in front of earlier text. */
  lemma {:induction false} CursorPrefix(a: string, b: string, n: nat)
    requires n <= |a|
    ensures CursorAt(a + b, n) == CursorAt(a, n)
  {
    if n > 0 {
      CursorPrefix(a, b, n - 1);
      assert (a + b)[n - 1] == a[n - 1];
    }
  }

  /** After an unescaped opener, as long as neither its closer nor a
      backslash follows, the cursor stays unescaped inside the group. */
  lemma {:induction false} GroupOpenAt(a: string, o: char, b: string, n: nat)
    requires o in "([{" && !CursorAt(a, |a|).escaped
    requires CloserOf(o) !in b && '\\' !in b
    requires n <= |b|
    ensures !CursorAt(a + [o] + b, |a| + 1 + n).escaped
    ensures Open(CursorAt(a + [o] + b, |a| + 1 + n).depth, o) >= 1
    decreases n
  {
    var p := a + [o] + b;
    if n == 0 {
      assert p == a + ([o] + b);
      CursorPrefix(a, [o] + b, |a|);
      assert p[|a|] == o;
      StepKeepsOpen(CursorAt(p, |a|).depth, o, o);
    } else {
      GroupOpenAt(a, o, b, n - 1);
      var c := p[|a| + n];
      assert c == b[n - 1];
      StepKeepsOpen(CursorAt(p, |a| + n).depth, o, c);
    }
  }

  /** A comma inside a group is never a separator: once an unescaped `(`,
      `[` or `{` is read, no comma before its closer splits the pattern,
      whatever text comes after the closer. */
  lemma GroupCommasNotSeparators(a: string, o: char, b: string, rest: string)
    requires o in "([{" && !CursorAt(a, |a|).escaped
    requires CloserOf(o) !in b && '\\' !in b
    ensures forall k :: |a| + 1 <= k < |a| + 1 + |b| ==> !IsSeparator(a + [o] + b + rest, k)
  {
    forall k | |a| + 1 <= k < |a| + 1 + |b|
      ensures !IsSeparator(a + [o] + b + rest, k)
    {
      GroupOpenAt(a, o, b, k - |a| - 1);
      CursorPrefix(a + [o] + b, rest, k);
    }
  }

  /** A plain prefix, a group whose inside holds no closer and no
      backslash, its closer, and a plain suffix form a single token: the
      commas inside the group do not split it. */
  lemma ClosedGroupOneToken(a: string, o: char, b: string, c: string)
    requires IsPlain(a) && IsPlain(c) && o in "([{"
    requires CloserOf(o) !in b && '\\' !in b
    ensures var p := a + [o] + b + [CloserOf(o)] + c;
            SplitGlobPattern(p) == (if Trim(p) == [] then [] else [Trim(p)])
  {
    var rest := [CloserOf(o)] + c;
    var p := a + [o] + b + rest;
    assert p == a + [o] + b + [CloserOf(o)] + c;
    PlainKeepsFresh(a, |a|);
    GroupCommasNotSeparators(a, o, b, rest);
    forall k | 0 <= k < |p|
      ensures !IsSeparator(p, k)
    {
      if k < |a| {
        assert p[k] == a[k] && a[k] in a;
      } else if k == |a| {
        assert p[k] == o;
      } else if k == |a| + 1 + |b| {
        assert p[k] == CloserOf(o);
      } else if k > |a| + 1 + |b| {
        assert p[k] == c[k - |a| - 2 - |b|];
        assert c[k - |a| - 2 - |b|] in c;
      }
    }
    NoSeparatorOneToken(p);
  }

  /** A backslash outside an escape hides the next character: that
      character, comma or bracket alike, is never a separator, and the
      counters after the pair are those before it. */
  lemma EscapeIsInert(a: string, c: char, b: string)
    requires !CursorAt(a, |a|).escaped
    ensures var p := a + ['\\', c] + b;
            !IsSeparator(p, |a|) && !IsSeparator(p, |a| + 1) && CursorAt(p, |a| + 2) == CursorAt(a, |a|)
  {
    var p := a + ['\\', c] + b;
    CursorPrefix(a, ['\\', c] + b, |a|);
    assert p == a + (['\\', c] + b);
    assert p[|a|] == '\\' && p[|a| + 1] == c;
  }

  /** Slices of `x + b` past `x` are slices of `b`. */
  lemma ShiftSlice(x: string, b: string, s: nat, j: nat)
    requires s <= j <= |b|
    ensures (x + b)[|x| + s..|x| + j] == b[s..j]
    ensures (x + b)[|x| + s..] == b[s..]
  {
  }

  /** Scanning `x + b` past `x` behaves as scanning `b` on its own. */
  lemma {:induction false} ScanShift(x: string, b: string, j: nat, s: nat, d: Depth)
    requires s <= j && s <= |b|
    ensures Scan(x + b, |x| + j, |x| + s, d) == Scan(b, j, s, d)
    decreases |b| - j, 1
  {
    if j >= |b| {
      ShiftSlice(x, b, s, |b|);
    } else if b[j] == '\\' {
      ShiftEscape(x, b, j, s, d);
    } else if b[j] == ',' && d.IsTop() {
      ShiftComma(x, b, j, s, d);
    } else {
      ShiftOther(x, b, j, s, d);
    }
  }

  lemma {:induction false} ShiftEscape(x: string, b: string, j: nat, s: nat, d: Depth)
    requires s <= j < |b| && b[j] == '\\'
    ensures Scan(x + b, |x| + j, |x| + s, d) == Scan(b, j, s, d)
    decreases |b| - j, 0
  {
    assert (x + b)[|x| + j] == b[j];
    ScanShift(x, b, j + 2, s, d);
  }

  lemma {:induction false} ShiftComma(x: string, b: string, j: nat, s: nat, d: Depth)
    requires s <= j < |b| && b[j] == ',' && d.IsTop()
    ensures Scan(x + b, |x| + j, |x| + s, d) == Scan(b, j, s, d)
    decreases |b| - j, 0
  {
    assert (x + b)[|x| + j] == b[j];
    ShiftSlice(x, b, s, j);
    ScanShift(x, b, j + 1, j + 1, d);
  }

  lemma {:induction false} ShiftOther(x: string, b: string, j: nat, s: nat, d: Depth)
    requires s <= j < |b| && b[j] != '\\' && !(b[j] == ',' && d.IsTop())
    ensures Scan(x + b, |x| + j, |x| + s, d) == Scan(b, j, s, d)
    decreases |b| - j, 0
  {
    assert (x + b)[|x| + j] == b[j];
    ScanShift(x, b, j + 1, s, Step(d, b[j]));
  }

  /** A backslash in text that ends unescaped hides a character of that
      text, and the counters after the pair are those before it. */
  lemma EscapeInside(a: string, i: nat, d: Depth)
    requires i < |a| && a[i] == '\\' && CursorAt(a, i) == Cursor(false, d)
    requires !CursorAt(a, |a|).escaped
    ensures i + 2 <= |a| && CursorAt(a, i + 2) == Cursor(false, d)
  {
    if i + 1 == |a| {
      assert false;
    }
  }

  /** Slices of `q` inside its prefix `a` are slices of `a`. */
  lemma PrefixSlice(a: string, q: string, s: nat, i: nat)
    requires |a| <= |q| && q[..|a|] == a && s <= i <= |a|
    ensures q[s..i] == a[s..i]
  {
    forall k | 0 <= k < i - s
      ensures q[s..i][k] == a[s..i][k]
    {
      assert q[s + k] == q[..|a|][s + k];
    }
  }

  /** Scanning `q`, which continues `a` with a comma, up to that comma cuts
      as scanning `a` does, provided `a` ends unescaped and outside every
      group; the comma then ends the last piece of `a`. */
  lemma {:induction false} ScanPrefix(a: string, q: string, i: nat, start: nat, d: Depth)
    requires |a| < |q| && q[..|a|] == a && q[|a|] == ','
    requires start <= i <= |a|
    requires CursorAt(a, i) == Cursor(false, d)
    requires CursorAt(a, |a|) == Fresh
    ensures Scan(q, i, start, d) == Scan(a, i, start, d) + Scan(q, |a| + 1, |a| + 1, Top)
    decreases |a| - i, 1
  {
    if i == |a| {
      PrefixEnd(a, q, start, d);
    } else {
      assert q[i] == q[..|a|][i] == a[i];
      if a[i] == '\\' {
        PrefixEscape(a, q, i, start, d);
      } else if a[i] == ',' && d.IsTop() {
        PrefixComma(a, q, i, start, d);
      } else {
        PrefixOther(a, q, i, start, d);
      }
    }
  }

  /** At the end of `a` the comma of `q` closes the last piece of `a`. */
  lemma PrefixEnd(a: string, q: string, start: nat, d: Depth)
    requires |a| < |q| && q[..|a|] == a && q[|a|] == ','
    requires start <= |a| && d == Top
    ensures Scan(q, |a|, start, d) == Scan(a, |a|, start, d) + Scan(q, |a| + 1, |a| + 1, Top)
  {
    PrefixSlice(a, q, start, |a|);
    assert Scan(a, |a|, start, d) == [a[start..]];
    assert a[start..] == a[start..|a|];
  }

  lemma {:induction false} PrefixEscape(a: string, q: string, i: nat, start: nat, d: Depth)
    requires |a| < |q| && q[..|a|] == a && q[|a|] == ','
    requires start <= i < |a| && a[i] == '\\' && q[i] == a[i]
    requires CursorAt(a, i) == Cursor(false, d)
    requires CursorAt(a, |a|) == Fresh
    ensures Scan(q, i, start, d) == Scan(a, i, start, d) + Scan(q, |a| + 1, |a| + 1, Top)
    decreases |a| - i, 0
  {
    EscapeInside(a, i, d);
    ScanPrefix(a, q, i + 2, start, d);
  }

  lemma {:induction false} PrefixComma(a: string, q: string, i: nat, start: nat, d: Depth)
    requires |a| < |q| && q[..|a|] == a && q[|a|] == ','
    requires start <= i < |a| && a[i] == ',' && d.IsTop() && q[i] == a[i]
    requires CursorAt(a, i) == Cursor(false, d)
    requires CursorAt(a, |a|) == Fresh
    ensures Scan(q, i, start, d) == Scan(a, i, start, d) + Scan(q, |a| + 1, |a| + 1, Top)
    decreases |a| - i, 0
  {
    PrefixSlice(a, q, start, i);
    ScanPrefix(a, q, i + 1, i + 1, d);
  }

  lemma {:induction false} PrefixOther(a: string, q: string, i: nat, start: nat, d: Depth)
    requires |a| < |q| && q[..|a|] == a && q[|a|] == ','
    requires start <= i < |a| && a[i] != '\\' && !(a[i] == ',' && d.IsTop()) && q[i] == a[i]
    requires CursorAt(a, i) == Cursor(false, d)
    requires CursorAt(a, |a|) == Fresh
    ensures Scan(q, i, start, d) == Scan(a, i, start, d) + Scan(q, |a| + 1, |a| + 1, Top)
    decreases |a| - i, 0
  {
    ScanPrefix(a, q, i + 1, start, Step(d, a[i]));
  }

  lemma {:induction false} TrimAndDropConcat(xs: seq<string>, ys: seq<string>)
    ensures TrimAndDrop(xs + ys) == TrimAndDrop(xs) + TrimAndDrop(ys)
    decreases |xs|
  {
    var zs := xs + ys;
    if xs == [] {
      assert zs == ys;
    } else {
      assert zs[0] == xs[0] && zs[1..] == xs[1..] + ys;
      TrimAndDropConcat(xs[1..], ys);
      var t, tx, ty := Trim(xs[0]), TrimAndDrop(xs[1..]), TrimAndDrop(ys);
      assert TrimAndDrop(zs[1..]) == tx + ty;
      if t == [] {
        assert TrimAndDrop(zs) == tx + ty;
        assert TrimAndDrop(xs) == tx;
      } else {
        assert TrimAndDrop(zs) == [t] + (tx + ty);
        assert TrimAndDrop(xs) == [t] + tx;
        ConcatAssoc([t], tx, ty);
      }
    }
  }

  /** The pieces of `a + "," + b` are those of `a` followed by those of
      `b`, when `a` ends unescaped outside every group. */
  lemma ScanConcat(a: string, b: string)
    requires CursorAt(a, |a|) == Fresh
    ensures Scan(a + [','] + b, 0, 0, Top) == Scan(a, 0, 0, Top) + Scan(b, 0, 0, Top)
  {
    var x := a + [','];
    var q := x + b;
    assert a + [','] + b == q && |x| == |a| + 1;
    assert q[..|a|] == a && q[|a|] == ',';
    ScanPrefix(a, q, 0, 0, Top);
    ScanShift(x, b, 0, 0, Top);
  }

  /** Splitting distributes over a top-level comma: when `a` ends unescaped
      outside every group, the tokens of `a + "," + b` are those of `a`
      followed by those of `b`. */
  lemma SplitConcat(a: string, b: string)
    requires CursorAt(a, |a|) == Fresh
    ensures SplitGlobPattern(a + [','] + b) == SplitGlobPattern(a) + SplitGlobPattern(b)
  {
    ScanConcat(a, b);
    TrimAndDropConcat(Scan(a, 0, 0, Top), Scan(b, 0, 0, Top));
  }

  /** The tokens of each piece, one piece after another. */
  function SplitEach(ps: seq<string>): seq<string>
  {
    if ps == [] then [] else SplitGlobPattern(ps[0]) + SplitEach(ps[1..])
  }

  /** Joining pieces that each end unescaped outside every group (the last
      one excepted) with commas, then splitting, splits each piece. */
  lemma {:induction false} SplitJoinPieces(ps: seq<string>)
    requires forall k :: 0 <= k < |ps| - 1 ==> CursorAt(ps[k], |ps[k]|) == Fresh
    ensures SplitGlobPattern(JoinWith(ps, ',')) == SplitEach(ps)
    decreases |ps|
  {
    if |ps| == 1 {
      assert SplitEach(ps) == SplitGlobPattern(ps[0]) + SplitEach([]);
    } else if |ps| > 1 {
      SplitJoinPieces(ps[1..]);
      SplitConcat(ps[0], JoinWith(ps[1..], ','));
    }
  }

  /** When each piece is at most one token, its trim, splitting piece by
      piece trims the pieces and drops the blank ones. */
  lemma {:induction false} SplitEachOfSingles(qs: seq<string>)
    requires forall k :: 0 <= k < |qs| ==>
               SplitGlobPattern(qs[k]) == (if Trim(qs[k]) == [] then [] else [Trim(qs[k])])
    ensures SplitEach(qs) == TrimAndDrop(qs)
    decreases |qs|
  {
    if qs != [] {
      assert forall k :: 0 <= k < |qs[1..]| ==> qs[1..][k] == qs[k + 1];
      SplitEachOfSingles(qs[1..]);
    }
  }

  /** Plain globs followed by one glob with a group (such as `a/{bar,baz}`),
      joined with commas: each glob is one token, its trim, and the commas
      inside the group do not split it. */
  lemma PlainPiecesThenGroup(ps: seq<string>, a: string, o: char, b: string, c: string)
    requires forall k :: 0 <= k < |ps| ==> IsPlain(ps[k])
    requires IsPlain(a) && IsPlain(c) && o in "([{"
    requires CloserOf(o) !in b && '\\' !in b
    ensures var qs := ps + [a + [o] + b + [CloserOf(o)] + c];
            SplitGlobPattern(JoinWith(qs, ',')) == TrimAndDrop(qs)
  {
    var qs := ps + [a + [o] + b + [CloserOf(o)] + c];
    forall k | 0 <= k < |qs|
      ensures CursorAt(qs[k], |qs[k]|) == Fresh || k == |qs| - 1
      ensures SplitGlobPattern(qs[k]) == (if Trim(qs[k]) == [] then [] else [Trim(qs[k])])
    {
      if k < |ps| {
        assert qs[k] == ps[k];
        PlainOneToken(ps[k]);
      } else {
        ClosedGroupOneToken(a, o, b, c);
      }
    }
    SplitJoinPieces(qs);
    SplitEachOfSingles(qs);
  }

  /** A single glob: non-empty, trimmed, without a separator, and ending
      unescaped outside every group. */
  ghost predicate IsClosedToken(t: string) {
    && t != [] && IsTrimmed(t)
    && (forall k :: 0 <= k < |t| ==> !IsSeparator(t, k))
    && CursorAt(t, |t|) == Fresh
  }

  /** A single glob splits into itself. */
  lemma ClosedTokenAlone(t: string)
    requires IsClosedToken(t)
    ensures SplitGlobPattern(t) == [t]
  {
    NoSeparatorOneToken(t);
  }

  /** Splitting inverts joining with commas, for single globs. */
  lemma {:induction false} SplitJoinRoundTrip(ts: seq<string>)
    requires forall k :: 0 <= k < |ts| ==> IsClosedToken(ts[k])
    ensures SplitGlobPattern(JoinWith(ts, ',')) == ts
    decreases |ts|, 1
  {
    if ts == [] {
      BlankPatternNoTokens([]);
    } else if |ts| == 1 {
      ClosedTokenAlone(ts[0]);
      assert ts == [ts[0]];
    } else {
      var t, rest := ts[0], ts[1..];
      assert IsClosedToken(t);
      assert forall k :: 0 <= k < |rest| ==> rest[k] == ts[k + 1];
      RoundTripCons(t, rest);
      assert ts == [t] + rest;
    }
  }

  lemma {:induction false} RoundTripCons(t: string, rest: seq<string>)
    requires IsClosedToken(t) && rest != []
    requires forall k :: 0 <= k < |rest| ==> IsClosedToken(rest[k])
    ensures SplitGlobPattern(JoinWith([t] + rest, ',')) == [t] + rest
    decreases |rest| + 1, 0
  {
    ClosedTokenAlone(t);
    SplitJoinRoundTrip(rest);
    SplitConcat(t, JoinWith(rest, ','));
    JoinCons(t, rest, ',');
  }
}

=== FILE: text.dfy ===
/** The optional values of the TypeScript source (`x?: T`, `undefined`). */
module Optional {

  datatype Option<+T> = None | Some(value: T) {

    /** Returns the value, or `default` when absent (the source's `x ?? default`). */
    function GetOr(default: T): T {
      match this
      case Some(v) => v
      case None => default
    }
  }
}

/** Strings as `seq<char>`: JavaScript's `trim` and `Array.prototype.join`. */
module Text {

  /** The characters `String.prototype.trim` removes: the WhiteSpace and
      LineTerminator code points of ECMAScript (section 12.2 and 12.3 of ECMA-262). */
  const Spaces: set<char> := {
    '\t', '\n', '\U{B}', '\U{C}', '\r', ' ', '\U{A0}', '\U{1680}',
    '\U{2000}', '\U{2001}', '\U{2002}', '\U{2003}', '\U{2004}', '\U{2005}',
    '\U{2006}', '\U{2007}', '\U{2008}', '\U{2009}', '\U{200A}',
    '\U{2028}', '\U{2029}', '\U{202F}', '\U{205F}', '\U{3000}', '\U{FEFF}'}

  predicate IsSpace(c: char) {
    c in Spaces
  }

  predicate AllSpace(s: string) {
    forall i :: 0 <= i < |s| ==> IsSpace(s[i])
  }

  /** Neither starts nor ends with a space: a fixed point of `Trim`. */
  predicate IsTrimmed(s: string) {
    s == [] || (!IsSpace(s[0]) && !IsSpace(s[|s| - 1]))
  }

  function TrimStart(s: string): (r: string)
    ensures |r| <= |s| && r == s[|s| - |r|..]
    ensures r == [] || !IsSpace(r[0])
  {
    if s != [] && IsSpace(s[0]) then TrimStart(s[1..]) else s
  }

  function TrimEnd(s: string): (r: string)
    ensures |r| <= |s| && r == s[..|r|]
    ensures r == [] || !IsSpace(r[|r| - 1])
  {
    if s != [] && IsSpace(s[|s| - 1]) then TrimEnd(s[..|s| - 1]) else s
  }

  lemma {:induction false} TrimStartDropsSpaces(s: string)
    ensures forall i :: 0 <= i < |s| - |TrimStart(s)| ==> IsSpace(s[i])
  {
    if s != [] && IsSpace(s[0]) {
      TrimStartDropsSpaces(s[1..]);
      forall i | 1 <= i < |s| - |TrimStart(s)|
        ensures IsSpace(s[i])
      {
        assert s[i] == s[1..][i - 1];
      }
    }
  }

  lemma {:induction false} TrimEndDropsSpaces(s: string)
    ensures forall i :: |TrimEnd(s)| <= i < |s| ==> IsSpace(s[i])
  {
    if s != [] && IsSpace(s[|s| - 1]) {
      var s' := s[..|s| - 1];
      TrimEndDropsSpaces(s');
      forall i | |TrimEnd(s)| <= i < |s| - 1
        ensures IsSpace(s[i])
      {
        assert s[i] == s'[i];
      }
    }
  }

  /** `s.trim()`. */
  function Trim(s: string): (r: string)
    ensures IsTrimmed(r)
    ensures IsTrimmed(s) ==> r == s
  {
    TrimEnd(TrimStart(s))
  }

  /** The trim is a slice of the text, starting where `TrimStart` starts. */
  lemma TrimIsSlice(s: string)
    ensures var r, a := Trim(s), |s| - |TrimStart(s)|;
            a + |r| <= |s| && r == s[a..a + |r|]
  {
    var t := TrimStart(s);
    var a := |s| - |t|;
    var r := TrimEnd(t);
    assert t == s[a..] && r == t[..|r|];
    assert s[a..a + |r|] == t[..|r|];
  }

  /** Everything after the trim is space. */
  lemma TrimTrailing(s: string)
    ensures var r, a := Trim(s), |s| - |TrimStart(s)|;
            forall i :: a + |r| <= i < |s| ==> IsSpace(s[i])
  {
    var t := TrimStart(s);
    var a := |s| - |t|;
    TrimEndDropsSpaces(t);
    assert t == s[a..];
    forall i | a + |TrimEnd(t)| <= i < |s|
      ensures IsSpace(s[i])
    {
      assert s[i] == t[i - a];
    }
  }

  /** Trimming cuts a run of spaces from each end and nothing else. */
  lemma TrimRemovesOnlySpaces(s: string)
    ensures var r, a := Trim(s), |s| - |TrimStart(s)|;
            && a + |r| <= |s| && r == s[a..a + |r|]
            && (forall i :: 0 <= i < a ==> IsSpace(s[i]))
            && (forall i :: a + |r| <= i < |s| ==> IsSpace(s[i]))
  {
    TrimIsSlice(s);
    TrimStartDropsSpaces(s);
    TrimTrailing(s);
  }

  /** Trimming leaves nothing exactly when the text is all spaces. */
  lemma TrimEmptyIffAllSpace(s: string)
    ensures Trim(s) == [] <==> AllSpace(s)
  {
    TrimRemovesOnlySpaces(s);
    var r, a := Trim(s), |s| - |TrimStart(s)|;
    if r == [] {
      assert s == s[..a] + s[a + |r|..];
    } else {
      assert s[a] == r[0];
    }
  }

  /** `parts.join(sep)`. */
  function JoinWith(parts: seq<string>, sep: char): (r: string)
    ensures |parts| == 1 ==> r == parts[0]
    ensures parts == [] ==> r == []
  {
    if parts == [] then []
    else if |parts| == 1 then parts[0]
    else parts[0] + [sep] + JoinWith(parts[1..], sep)
  }

  /** Concatenation is associative; stated once so that long proofs need
      not rediscover it. */
  lemma ConcatAssoc<T>(a: seq<T>, b: seq<T>, c: seq<T>)
    ensures a + (b + c) == (a + b) + c
  {
  }

  /** Joining a non-empty list after one more part puts one separator
      between them. */
  lemma JoinCons(x: string, tail: seq<string>, sep: char)
    requires tail != []
    ensures JoinWith([x] + tail, sep) == x + [sep] + JoinWith(tail, sep)
  {
    assert ([x] + tail)[1..] == tail;
  }

  predicate StartsWith(s: string, prefix: string) {
    |prefix| <= |s| && s[..|prefix|] == prefix
  }
}
